=== FILE: README.md ===
# Pebble core data structures and graph generators in Dafny

This project models the core of the `pebble` sources, in their own terms:

- **Cursor lists.** These are the singly-linked `LinkedList` (with `head`, `tail`, `cursor` and `before_cursor`) and the doubly-linked `DLinkedList` of `dsbasic.c`.
  - Module `CursorList` sees a singly-linked list as its payloads plus a cursor index. The index `|items|` is the null ("past the end") cursor.
  - Module `SinglyLinked` models the pointer structure itself: nodes in a heap, with address 0 as null. It proves that `newSL`, `forkcursorSL`, `insertSL`, `consSL`, `appendSL` and `delete_and_nextSL` each perform the corresponding abstract edit.
  - The `SinglyLinked` representation relation is shown equivalent to the consistency predicate. `isconsistentSL` misses one check, so this is the corrected predicate (see Findings).
  - Module `DoublyLinked` models `DLinkedList` abstractly, with an optional cursor index.
- **The dictionary of `hashtable.h`** (module `Dictionary`). It is an array of cursor-list buckets, indexed by the record's key modulo the allocation. Lookups use a caller-supplied equality. It supports `queryDict`, `writeDict` (query first, refuse duplicates) and `unsafe_noquery_writeDict`.
- **DAG construction in `dag.c`**:
  - module `Dag`: the graph record and `dag_precompute_data`;
  - module `Pyramid`: `create_piramid_graph`;
  - module `GraphOps`: `clone_graph`, `offset_graph` and `product_graph`.

  A graph is a vertex count, degree sequences, and in/out neighbour buffers (`seq<seq<nat>>`), plus the optional derived source and sink arrays.
- **The bit-reversal generator of `bitreversal.py`** (module `BitReversal`):
  - `reverse(x, n)` is modelled through Python's zero-padded binary formatting, string reversal and `int(s, 2)`.
  - `bit_reversal_graph(n)` is modelled as a vertex set and an arc set.

Modelling conventions:
- Null pointers become `None`.
- Aborts (`ASSERT_TRUE` / `ASSERT_NULL` in `dag_precompute_data`) become `Failure` values.
- `malloc` becomes a caller-supplied fresh address.

Files:
- `wrappers.dfy`: `Option` and `Result`.
- `cursor_list.dfy`, `singly_linked.dfy`, `doubly_linked.dfy`: the lists.
- `dictionary.dfy`: the dictionary.
- `dag.dfy`, `pyramid.dfy`, `graph_ops.dfy`: the graphs.
- `bit_reversal.dfy`: the bit-reversal generator.

## Model

| member | source | states |
|---|---|---|
| CursorList.New | dsbasic.c:72-84 | a new list has no nodes and a null cursor |
| CursorList.Insert | dsbasic.c:109-142 | the new payload lands at the cursor index. Earlier payloads keep their places and later ones move up by one. The tail payload is unchanged. With `before` the cursor stays on its old node (index c+1); otherwise it is on the new node |
| CursorList.Append | dsbasic.c:214-239 | the payloads become the old ones plus `d`. The cursor index never changes, and afterwards it names a node: the new one if the cursor was null, otherwise the same node |
| CursorList.Cons | dsbasic.c:145-172 | on an empty list this is exactly Append. Otherwise `d` is pushed at the head, the rest is the old list, and the cursor is on the new head |
| CursorList.DeleteAndNext | dsbasic.c:184-208 | the cursor node is removed and the rest keeps its order. The cursor index stays, so it is valid exactly when the removed node had a successor |
| CursorList.InsertThenDelete | dsbasic.c:109-208 | deleting the node a non-`before` insert created restores the list exactly |
| CursorList.ConsThenDelete | dsbasic.c:145-208 | deleting the pushed head gives back the old payloads, with the cursor on the old head |
| CursorList.AppendAllOrder | dsbasic.c:211-239 | a run of appends leaves the old payloads followed by the appended ones in order, with the cursor index untouched |
| SinglyLinked.IsConsistentSL | dsbasic.c:29-69 | the walk returns true exactly when the checks isconsistentSL makes all hold |
| SinglyLinked.WellFormedIffRep | dsbasic.c:26-69 | a header is well formed (isconsistentSL's checks plus "tail is the last node") exactly when it represents an abstract list, and then that list is unique |
| SinglyLinked.RepWellFormed | dsbasic.c:140-140 | any header that represents a list passes isconsistentSL, so each mutator's closing assertion holds |
| SinglyLinked.ConsistencyMissesDetachedTail | dsbasic.c:44-47 | a header whose tail is a detached node with no successor passes isconsistentSL but represents no list |
| SinglyLinked.ConsistentAsWritten | dsbasic.c:29-69 | the checks isconsistentSL makes, one by one: when head or tail is null, all four pointers (head, tail, cursor, before_cursor) are null; otherwise `tail->next` is null; a null `before_cursor` means the cursor is the head; and a non-null `before_cursor` links to the cursor and is reached on the walk from head |
| SinglyLinked.NewSL | dsbasic.c:72-84 | all four header pointers null; NewSLRep shows it represents the empty list |
| SinglyLinked.ForkCursorSL | dsbasic.c:87-97 | the second header takes all four pointers of the first; ForkCursorSLRep shows it represents the same list |
| SinglyLinked.InsertSL | dsbasic.c:109-142 | insertSL allocates exactly the new node and changes no existing node except the cursor's predecessor |
| SinglyLinked.ConsSL | dsbasic.c:145-172 | consSL allocates exactly the new node, which becomes the head and holds the payload; on a non-empty list no existing node changes |
| SinglyLinked.AppendSL | dsbasic.c:214-239 | appendSL allocates exactly the new node, which has no successor and becomes the tail; only the old tail node changes |
| SinglyLinked.DeleteAndNextSL | dsbasic.c:184-208 | delete_and_nextSL frees exactly the cursor node, the cursor moves to its successor, and no remaining node changes except the predecessor |
| SinglyLinked.NewSLRep | dsbasic.c:72-84 | in any heap, a new header represents the empty list |
| SinglyLinked.ForkCursorSLRep | dsbasic.c:87-97 | the forked header represents the same list and cursor |
| SinglyLinked.InsertSLRefines | dsbasic.c:109-142 | the pointer-level insertSL yields a header over the chain with the new node spliced in before the cursor node, and that header represents the abstract Insert |
| SinglyLinked.InsertSLHeap | dsbasic.c:121-124 | insertSL allocates the new node pointing at the cursor node, redirects only the cursor's predecessor to it, and changes no other node |
| SinglyLinked.InsertSLTail | dsbasic.c:126-132 | insertSL leaves `tail` on the same last node |
| SinglyLinked.ConsSLRefines | dsbasic.c:145-172 | pointer-level consSL yields a header over the new node followed by the old chain, and that header represents the abstract Cons |
| SinglyLinked.ConsSLEmpty | dsbasic.c:150-155 | on an empty list consSL is appendSL |
| SinglyLinked.AppendSLRefines | dsbasic.c:214-239 | pointer-level appendSL yields a header over the old chain plus the new node, and that header represents the abstract Append |
| SinglyLinked.DeleteAndNextSLRefines | dsbasic.c:184-208 | pointer-level delete_and_nextSL yields a header over the chain without the cursor node, and that header represents the abstract DeleteAndNext |
| SinglyLinked.DeleteAndNextSLHeap | dsbasic.c:195-206 | the cursor node is freed and its predecessor points at its successor; no other node changes |
| SinglyLinked.DeleteAndNextSLHeader | dsbasic.c:199-205 | after the delete, `tail` is the last remaining node (the predecessor when the tail went), and the cursor and its predecessor sit at the abstract cursor |
| DoublyLinked.NewDL | dsbasic.c:313-323 | a new list is empty with a null cursor |
| DoublyLinked.InsertDL | dsbasic.c:335-367 | the new payload goes just before the cursor node, and the other payloads keep their order. With `before` the cursor stays on its node; otherwise it moves onto the new node |
| DoublyLinked.DeleteAndNextDL | dsbasic.c:378-403 | the cursor node is removed and the other payloads keep their order. The cursor keeps its index, which now names the old successor, and is null exactly when the removed node was last |
| DoublyLinked.DeleteAndPrevDL | dsbasic.c:416-441 | the cursor node is removed and the other payloads keep their order. The cursor index goes down by one, to the old predecessor, and is null exactly when the removed node was first |
| DoublyLinked.ExtendDL | dsbasic.c:452-481 | `d` is added at the tail or at the head, and the cursor stays on the same node: its index is unchanged after a tail extension and one higher after a head extension. A null cursor stays null |
| DoublyLinked.ResetDL | dsbasic.c:496-499 | the cursor is on the head, or null on an empty list |
| DoublyLinked.NextDL | dsbasic.c:501-505 | the cursor moves one node on, and becomes null past the tail |
| DoublyLinked.PrevDL | dsbasic.c:507-511 | the cursor moves one node back, and becomes null before the head |
| DoublyLinked.GetDL | dsbasic.c:514-518 | the result is a payload of the list |
| DoublyLinked.NextPrevInverse | dsbasic.c:501-511 | away from the ends, nextDL and prevDL undo each other |
| DoublyLinked.InsertThenDeleteDL | dsbasic.c:335-403 | deleting the node a non-`before` insert created restores the list |
| DoublyLinked.InsertBeforeThenDeleteDL | dsbasic.c:335-511 | after a `before` insert, prevDL then delete_and_nextDL restores the list |
| DoublyLinked.DeletePrevNextAgree | dsbasic.c:378-441 | delete_and_prevDL and delete_and_nextDL remove the same node, and away from the ends delete_and_prevDL is delete_and_nextDL followed by prevDL |
| DoublyLinked.ExtendHeadThenDeleteDL | dsbasic.c:452-499 | extending at the head, then resetDL and delete_and_nextDL, gives back the list with its cursor reset |
| DoublyLinked.ExtendTailThenDeleteDL | dsbasic.c:452-505 | extending at the tail, walking from the head to the new node and calling delete_and_prevDL gives back the payloads, with the cursor on the old tail |
| DoublyLinked.WalkReadsInOrder | dsbasic.c:496-518 | resetDL followed by k nextDL calls reads payload k, and runs off the end exactly after the last payload |
| Dag.Zeros | dag.c:49-55 | the list holds, in increasing order, exactly the vertices of degree zero |
| Dag.ZerosCount | dag.c:33-40 | its length is the number of vertices of degree zero |
| Dag.ListsZerosIsZeros | dag.c:49-55 | any increasing list of exactly the zero-degree vertices is that list |
| Dag.Precompute | dag.c:28-57 | aborts exactly when the derived arrays are present or there is no source or no sink. Otherwise it records the sources (indegree 0) and sinks (outdegree 0), both non-empty and in increasing order, and changes nothing else |
| Dag.CountZeros | dag.c:33-40 | the counting loop counts the vertices of degree zero |
| Dag.CollectZeros | dag.c:49-55 | the filling loop lists exactly the vertices of degree zero, in increasing order |
| Dag.PrecomputeData | dag.c:28-57 | the loop-based procedure computes the same result as Precompute, including its aborts |
| Pyramid.SizeFormula | dag.c:80-81 | the rows h+1, h, ..., 1 hold (h+2)(h+1)/2 vertices in all |
| Pyramid.LocateAt | dag.c:95-107 | the row-by-row numbering is a bijection between vertices and (row, position) pairs |
| Pyramid.OutDegree | dag.c:95-107 | the outdegree the degree loop sets: 0 at the top, 1 at either end of a lower row, 2 inside |
| Pyramid.InDegree | dag.c:108-108 | the indegree the degree loop sets: 0 on the bottom row (vertices 0..h), 2 above |
| Pyramid.Out | dag.c:95-138 | the out-buffer the arc loop fills has exactly as many entries as the degree loop counted |
| Pyramid.In | dag.c:95-138 | the in-buffer the arc loop fills has exactly as many entries as the degree loop counted |
| Pyramid.Raw | dag.c:61-138 | the graph before precompute has Size(h) vertices, every buffer as long as its degree, and no derived arrays |
| Pyramid.CreatePiramidGraph | dag.c:61-142 | with `sources`/`sinks` taken as null before precompute, create_piramid_graph never aborts, and its result has Size(h) vertices with buffers matching degrees |
| Pyramid.OutArcs | dag.c:118-138 | a vertex below the top points to the vertex up-left (when not first in its row) and then up-right (when not last); the top vertex has no arcs. The buffer length is the outdegree the degree loop sets |
| Pyramid.InArcs | dag.c:118-138 | a vertex above the bottom row is entered from the two vertices below it, below-left in slot 0 and below-right in slot 1. Bottom vertices have none, and the length is the indegree |
| Pyramid.InSlots | dag.c:122-136 | a right-up arc from a vertex writes slot 0 of its target, and a left-up arc writes slot 1 |
| Pyramid.RawBuffersMatch | dag.c:95-116 | every buffer is as long as its recorded degree |
| Pyramid.RawMirrored | dag.c:118-138 | every arc in an out-buffer is listed in the target's in-buffer, and vice versa |
| Pyramid.RawSources | dag.c:108-108 | exactly the bottom row 0..h has indegree 0 |
| Pyramid.RawSinks | dag.c:95-107 | exactly the top vertex has outdegree 0 |
| Pyramid.PiramidSourcesAndSinks | dag.c:61-142 | with `sources`/`sinks` taken as null before precompute, create_piramid_graph never aborts. Its sources are 0..h and its only sink is the top vertex |
| Pyramid.PyramidArcTotals | dag.c:95-138 | over the whole pyramid the out-buffers list as many arcs as the in-buffers, h(h+1) each, counting repeats |
| Pyramid.HeightTwoOut | dag.c:118-138 | the height-2 pyramid's out-buffers are [3],[3,4],[4],[5],[5],[] |
| Pyramid.HeightTwoIn | dag.c:118-138 | the height-2 pyramid's in-buffers are [],[],[],[0,1],[1,2],[3,4] |
| GraphOps.Trim | dag.c:184-205 | the buffers clone_graph allocates: each has exactly its vertex's degree of entries, the first ones of the source buffer, and a degree-0 vertex gets none. A graph whose buffers already match its degrees is unchanged |
| GraphOps.CloneGraph | dag.c:151-209 | null clones to null. Otherwise the clone is the one `clone_graph` evidently intends: the size and both degree arrays are copied whole, each buffer keeps the first degree-many entries of the source buffer (none for degree 0, where the source stores NULL), and precompute runs on the copy. The clone fails exactly when there is no source or no sink, and a graph whose buffers match its degrees is copied arc for arc |
| GraphOps.CloneOfPrecomputed | dag.c:146-209 | cloning a precomputed graph whose buffers match its degrees gives it back unchanged |
| GraphOps.CloneIdempotent | dag.c:146-209 | cloning a clone gives the same clone |
| GraphOps.OffsetGraph | dag.c:375-396 | null stays null. Size, degrees and derived arrays are untouched, and buffer counts are kept |
| GraphOps.OffsetMembers | dag.c:383-395 | after offsetting, `w` is a neighbour of `v` exactly when `w - offset` was one before |
| GraphOps.OffsetZero | dag.c:375-396 | an offset of zero changes nothing |
| GraphOps.OffsetCompose | dag.c:375-396 | offsetting by a and then by b is offsetting by a + b |
| GraphOps.GlueAt | dag.c:425-437 | vertex a of copy i carries the inner buffer of a, raised by i*A |
| GraphOps.BridgesMembers | dag.c:438-446 | the second loop adds exactly the arcs from the last vertex of copy i to each vertex of copy t, for each outer arc i -> t |
| GraphOps.AddArc | dag.c:443-443 | one arc x -> y is recorded at both ends: y joins x's out-list and x joins y's in-list, no other membership changes, x's out-list grows by exactly one entry, and buffers still match degrees |
| GraphOps.AddArcs | dag.c:443-443 | adding a list of arcs puts each at both ends and adds nothing else; degrees follow the buffers |
| GraphOps.Product | dag.c:409-446 | the product has A*B vertices, buffers matching their degrees, and no derived arrays |
| GraphOps.ProductGraph | dag.c:401-448 | null if either factor is null. Otherwise it fails exactly when some copy's clone aborts (B > 0 and the inner graph lacks a source or a sink). Else it returns the product of the clone's buffers (`Trim(inner)`), which is the product of the inner graph itself when B is 0 or its buffers match its degrees |
| GraphOps.ProductOutArcs | dag.c:424-446 | vertex a of copy i points exactly to the shifted inner out-neighbours of a. If a is the last inner vertex, it also points to every vertex of each copy t with an outer arc i -> t |
| GraphOps.AddArcsOutLength | dag.c:443-443 | adding a list of arcs lengthens each out-list by the number of listed arcs leaving that vertex, repeats included |
| GraphOps.BridgesOutCount | dag.c:438-446 | the second loop adds A arcs from the last vertex of copy i for each entry of outer out-list i, and none from any other vertex |
| GraphOps.ProductOutLength | dag.c:424-446 | counted with repetition, vertex a of copy i has as many out-arcs as inner vertex a, plus A for each outer arc leaving i when a is the last inner vertex, so each outer arc adds exactly A arcs |
| GraphOps.ProductInArcs | dag.c:424-446 | vertex b of copy j is entered exactly from the shifted inner in-neighbours of b and from the last vertex of every copy i with an outer arc i -> j |
| GraphOps.BridgeArc | dag.c:438-446 | an outer arc i -> t gives the last vertex of copy i an arc to every vertex of copy t, listed at both ends |
| GraphOps.CopyArcMirrored | dag.c:424-437 | an inner arc listed at both ends is listed at both ends in every copy |
| GraphOps.ProductMirrored | dag.c:401-448 | if the inner graph lists each arc at both ends, so does the product |
| Dictionary.NewDict | hashtable.h:61-61 | a new dictionary is valid, holds no record, and every lookup chain is empty |
| Dictionary.Query | hashtable.h:46-59 | the result holds the record's key and its bucket (key modulo allocation, below the allocation). The value is present exactly when some chain entry is equal to the record; it is then the first such entry, `hops` counts the links up to it, and a miss walks the whole chain |
| Dictionary.QueryDict | hashtable.h:66-66 | the link-by-link walk computes Query |
| Dictionary.Store | hashtable.h:67-68 | storing a record appends it to its own bucket's chain, grows the size by one, keeps the dictionary valid, and leaves every other bucket alone |
| Dictionary.Write | hashtable.h:67-67 | the result is the preceding query. A match leaves the dictionary unchanged; otherwise the record is appended to its bucket, the size grows by one, and no other bucket changes. A dictionary whose buckets hold no two equal records keeps that property |
| Dictionary.UnsafeWrite | hashtable.h:68-68 | the record is appended to its bucket whatever it holds, and the size grows by one |
| Dictionary.WriteThenQuery | hashtable.h:46-67 | after a write, a query for the record finds an equal stored record, which is the record itself when the write stored it |
| Dictionary.DuplicateWriteKeepsSize | hashtable.h:67-67 | a refused write keeps the size, and the query still finds the earlier record |
| Dictionary.UnsafeWriteWithoutMatch | hashtable.h:67-68 | without an equal stored record, the unsafe write and the guarded write agree |
| Dictionary.UnsafeWriteBreaksUnique | hashtable.h:66-68 | with an equal stored record, the unsafe write leaves two equal records in a bucket |
| Dictionary.NoEqualPair | hashtable.h:24-31 | when no bucket holds two equal records and the strategies are sound, no two stored records anywhere are equal: equal records share a key and so a bucket |
| Dictionary.WriteAllOrder | hashtable.h:30-31 | after a run of writes, each bucket holds its old records followed by the accepted records that hash to it, in insertion order. The size grows by the number accepted |
| Dictionary.ExampleStart | hashtable.h:61-61 | a new four-bucket dictionary is the empty example |
| Dictionary.ExampleStep1 | hashtable.h:67-67 | writing key 1 into the empty example stores it in bucket 1 |
| Dictionary.ExampleStep2 | hashtable.h:67-67 | writing key 2 next stores it in bucket 2 |
| Dictionary.ExampleStep3 | hashtable.h:67-67 | writing key 1 again is refused: the query finds the first record and nothing changes |
| Dictionary.ExampleStep4 | hashtable.h:67-67 | writing key 3 next stores it in bucket 3, giving size 3 |
| Dictionary.KeysExample | hashtable.h:30-31 | writing keys 1, 2, 1, 3 stores three records, refuses the second key 1, and ends at size 3 |
| Dictionary.ExampleFinalQuery | hashtable.h:46-51 | in that dictionary, a query for key 1 finds the record first written with key 1 |
| BitReversal.Reverse | bitreversal.py:5-7 | reverse(x, n) fits in the padded width max(n, bit length of x), and below 2^n whenever x is |
| BitReversal.BitReversalGraph | bitreversal.py:9-16 | the graph's vertices are exactly 0 .. 2^(n+1)-1, and every arc goes from a smaller vertex to a larger one |
| BitReversal.ToBinaryBits | bitreversal.py:6-6 | the unpadded binary string lists the bits of x from the top, and is just long enough to hold x |
| BitReversal.FormatBits | bitreversal.py:6-6 | the padded string has width max(n, bit length), holds x, and digit i is bit width-1-i |
| BitReversal.ParseBits | bitreversal.py:7-7 | `int(s, 2)` is below 2^len(s), and its bit k is the digit k places from the right |
| BitReversal.ParseFormat | bitreversal.py:6-7 | parsing the padded string gives x back |
| BitReversal.WidthOfSmall | bitreversal.py:6-6 | for x < 2^n the padded width is n (1 when n is 0) |
| BitReversal.ReverseBitsGeneral | bitreversal.py:5-7 | for every x, bit k of reverse(x, n) is bit width-1-k of x, and the result fits in the width |
| BitReversal.ReverseBound | bitreversal.py:5-7 | x < 2^n implies reverse(x, n) < 2^n |
| BitReversal.ReverseBits | bitreversal.py:5-7 | for x < 2^n, bit k of reverse(x, n) is bit n-1-k of x |
| BitReversal.ReverseInvolution | bitreversal.py:5-7 | for x < 2^n, reverse(reverse(x, n), n) == x |
| BitReversal.ReversePermutes | bitreversal.py:5-7 | reverse(., n) maps [0, 2^n) into itself, is its own inverse there, and is injective |
| BitReversal.GraphVertices | bitreversal.py:9-13 | the graph has exactly the vertices 0 .. 2^(n+1)-1 |
| BitReversal.GraphArcs | bitreversal.py:9-16 | an arc is a path arc in either half or a cross arc i -> N + reverse(i, n), and nothing else |
| BitReversal.GraphForward | bitreversal.py:12-15 | every arc joins two vertices of the graph and goes from smaller to larger, so the graph is acyclic |
| BitReversal.ArcIntoSecondHalf | bitreversal.py:14-15 | a first-half vertex u has an arc to N + y exactly when reverse(u, n) == y |
| BitReversal.GraphCrossArcs | bitreversal.py:14-15 | second-half vertex N + y receives exactly one arc from the first half, the one from reverse(y, n) |

## Left out

- Printing and output are not modelled: `print_graph`, `print_dot_graph`, `default_vertex_label_hash`, `histogramDict` and `digraph_to_kth`. They only write text.
- Memory release is not modelled: `dispose_graph`, `disposeSL`, `disposeDL` and `disposeDict`, and the dictionary's disposal strategy. Freeing a node only removes it from the heap in `SinglyLinked`.
- `statistics.h`, `timedflags.h` and `pebbling.h` are not part of this model. They hold counters, signal-driven flags and declarations only.
- networkx is not modelled. The bit-reversal graph is an explicit vertex set and arc set.
- Allocation failure (`ASSERT_NOTNULL`, `assert(lelem)`) is not modelled, since memory is unbounded here. A new node's address is a parameter that must be fresh.
- `isconsistentSL` warns that it loops on a cyclic list. The model requires a finite chain as a ghost witness, so cyclic lists are out of scope.
- `forkcursorSL` is modelled as a value copy of the header. Later mutation through one header, which leaves the other stale, is not modelled.
- DoublyLinked.ExtendDL: the model follows `extendDL` with its consistency assertions compiled out. As written, `extendDL` rewires `l->tail->next` (dsbasic.c:468) or `l->head->prev` (dsbasic.c:475) and only then calls `isemptyDL`, whose `assert(isconsistentDL(list))` (dsbasic.c:303) fails because `isconsistentDL` rejects a tail with a successor or a head with a predecessor (dsbasic.c:275-276). So with assertions enabled, `extendDL` aborts on every non-empty list. The other DL operations are likewise modelled without their consistency assertions.
- `isconsistentDL` and `isemptyDL` are not modelled. The loop `while(ptr->next)` never advances `ptr`, so it does not terminate on a list of two or more nodes. The doubly-linked model states the intended invariant (a null cursor or one on a node) as `DoublyLinked.Valid`.
- `newDL` leaves the cursor uninitialised. `DoublyLinked.NewDL` sets it to null.
- `DoublyLinked` is abstract only. The pointer surgery of the DL operations (prev/next rewiring) is not modelled at pointer level.
- GraphOps.CloneGraph: `clone_graph` copies only `d->size` bytes of each degree array (dag.c:176-177), where `d->size` entries of `size_t` are meant. So most degree entries of the clone are uninitialised, and the buffer loops (dag.c:186-205) read them to size the buffers. It likewise copies `d->size` bytes into each buffer where degree-many entries are meant (dag.c:193, 204), and runs `dag_precompute_data` on uninitialised `sources`/`sinks`. `GraphOps.CloneGraph` models the evident intent: both degree arrays are copied whole, each buffer gets its first degree-many entries (none for degree 0), and the derived arrays are absent before precompute. It requires every source buffer to hold at least its degree of entries (`GraphOps.DegreesFit`), since `clone_graph` reads that many. `GraphOps.CloneOfPrecomputed`, `GraphOps.CloneIdempotent` and `GraphOps.ProductGraph` are stated about this intended clone.
- `offset_graph` and `product_graph` use a linked `VertexList` / `info` / `add_arc` representation. It does not match the array adjacency of the rest of `dag.c`, and `add_arc` is not part of this model. Buffers are modelled as sequences, and `add_arc` as appending at both ends and counting the degrees (`GraphOps.AddArc`).
- Pyramid.CreatePiramidGraph: `create_piramid_graph` mallocs the DAG (dag.c:77) and never sets `sources` or `sinks` before calling `dag_precompute_data` (dag.c:140), whose `ASSERT_NULL` checks (dag.c:30-31) then read uninitialised memory. `Pyramid.Raw` takes them as null, so the "never aborts" of `Pyramid.CreatePiramidGraph` and `Pyramid.PiramidSourcesAndSinks` holds only under that reading, as for `clone_graph`.
- GraphOps.Product: `product_graph` leaves the degree arrays and derived arrays unfilled. The model's degrees are the buffer lengths. The source leaves `sources`/`sinks` unset (uninitialised memory from `malloc`); the model takes them as absent.
- GraphOps.OffsetGraph: the offset is a natural number. The source's `int` offset could be negative, but `product_graph` only passes i*A >= 0.
- Machine integer widths (`int`, `size_t`) are not modelled: sizes such as (h+2)(h+1)/2 and A*B are unbounded integers. A negative pyramid height is likewise out of scope (the height is a `nat`).
- `hashtable.c` is not part of this model, so the dictionary follows the documented contract of `hashtable.h`. Not modelled:
  - the body of `isconsistentDict`;
  - the rounding of the allocation (the "between 15/16 and 16/16" remark);
  - the exact result fields `unsafe_noquery_writeDict` fills in. `Dictionary.UnsafeWrite` returns only the dictionary.
- Dictionary.Write: the header gives only the prototype of `writeDict`, not what it puts in `result`. The model takes the result to be the query made before the write: on a miss its value is absent, and it does not point at the newly stored record.
- Dictionary.Query: the meaning of `hops` is taken to be the number of chain links visited: up to and including the match, or the whole chain on a miss. The header does not define it.
- Dictionary.WriteAllOrder: the header's insertion-ordered element list is read per bucket. Each bucket keeps its records in insertion order, and `Accepted` is the global insertion order.
- BitReversal.Reverse: negative `x` or `n` are not modelled (both are `nat`). `int('', 2)` never arises, since a formatted string has at least one digit.
- DoublyLinked.GetDL: its own contract says only that the result is a payload of the list. Which payload (the cursor's) is stated by `DoublyLinked.WalkReadsInOrder`.
- `PrecomputeData` scans the indegrees and outdegrees in separate loops, where the source scans both in one. The counts and lists are the same.

## Findings

| source | as written | input that shows it | evidently intended | confidence | as-written member | corrected member |
|---|---|---|---|---|---|---|
| dsbasic.c:44-47 | isconsistentSL checks only that `tail->next` is null, not that `tail` is the last node reached from `head` | head -> node 1 -> null, tail = node 2 (allocated, no successor, not on the chain), cursor = node 1, before_cursor = null: accepted, yet appending would link node 2 rather than extend the chain | tail is the last node of the chain from head | not executed | SinglyLinked.ConsistencyMissesDetachedTail | SinglyLinked.WellFormedIffRep |

`SinglyLinked.ConsistentAsWritten` is the predicate as written and `SinglyLinked.IsConsistentSL` computes it. `SinglyLinked.WellFormed` adds the missing check. It is the invariant the refinement lemmas use: `SinglyLinked.Rep` holds exactly for well-formed headers, and every mutator re-establishes it.

=== FILE: bit_reversal.dfy ===
/** The bit-reversal graph generator of bitreversal.py. `reverse(x, n)`
    formats `x` in binary, zero-padded to at least `n` digits, reads the
    digits backwards and parses them again; `bit_reversal_graph(n)` joins two
    paths of 2^n vertices by the arcs `i -> N + reverse(i, n)`. Binary strings
    are sequences of the characters '0' and '1', most significant first. */
module BitReversal {

  function Pow2(n: nat): (r: nat)
    ensures r >= 1
  {
    if n == 0 then 1 else 2 * Pow2(n - 1)
  }

  /** Bit `k` of `x`: 0 or 1. */
  function Bit(x: nat, k: nat): (r: nat)
    ensures r < 2
  {
    if k == 0 then x % 2 else Bit(x / 2, k - 1)
  }

  function Digit(b: nat): char {
    if b == 0 then '0' else '1'
  }

  predicate IsBinary(s: seq<char>) {
    forall i :: 0 <= i < |s| ==> s[i] == '0' || s[i] == '1'
  }

  /** Python's `'{:b}'.format(x)`: the shortest binary string of `x`, which
      for 0 is "0". */
  function ToBinary(x: nat): (r: seq<char>)
    ensures |r| >= 1 && IsBinary(r)
  {
    if x < 2 then [Digit(x)] else ToBinary(x / 2) + [Digit(x % 2)]
  }

  function ZeroDigits(k: nat): (r: seq<char>)
    ensures |r| == k && IsBinary(r)
    ensures forall i :: 0 <= i < k ==> r[i] == '0'
  {
    seq(k, i => '0')
  }

  /** `'{:0{width}b}'.format(x, width=n)`: the binary string of `x`, padded
      with leading zeros to `n` digits; a longer string is not cut. */
  function Format(x: nat, n: nat): (r: seq<char>)
    ensures IsBinary(r)
  {
    var b := ToBinary(x);
    if |b| < n then ZeroDigits(n - |b|) + b else b
  }

  function Width(x: nat, n: nat): nat {
    if |ToBinary(x)| < n then n else |ToBinary(x)|
  }

  /** `s[::-1]`. */
  function Backwards(s: seq<char>): (r: seq<char>)
    ensures |r| == |s|
    ensures forall i :: 0 <= i < |s| ==> r[i] == s[|s| - 1 - i]
  {
    seq(|s|, i requires 0 <= i < |s| => s[|s| - 1 - i])
  }

  /** `int(s, 2)` on a string of binary digits; every string parsed here
      has at least one digit, so the empty case (a ValueError in Python)
      never arises. */
  function Parse(s: seq<char>): nat
    requires IsBinary(s)
  {
    if |s| == 0 then 0
    else 2 * Parse(s[..|s| - 1]) + (if s[|s| - 1] == '1' then 1 else 0)
  }

  /** reverse(x, n). The result fits in the padded width, and so in n bits
      whenever `x` does. */
  function Reverse(x: nat, n: nat): (r: nat)
    ensures r < Pow2(Width(x, n))
    ensures x < Pow2(n) ==> r < Pow2(n)
  {
    var s := Backwards(Format(x, n));
    assert Parse(s) < Pow2(Width(x, n)) && (x < Pow2(n) ==> Parse(s) < Pow2(n)) by {
      FormatBits(x, n);
      ParseBits(s);
      if x < Pow2(n) {
        WidthOfSmall(x, n);
        if n == 0 {
          assert s[0] == Format(x, n)[0];
        }
      }
    }
    Parse(s)
  }

  /** A number below 2^k has no bit at position k or above. */
  lemma {:induction false} BitAbove(x: nat, k: nat, j: nat)
    requires x < Pow2(k) && k <= j
    ensures Bit(x, j) == 0
  {
    if j > 0 {
      if k > 0 {
        BitAbove(x / 2, k - 1, j - 1);
      } else {
        BitAbove(x / 2, 0, j - 1);
      }
    }
  }

  /** Numbers below 2^w with the same low `w` bits are equal. */
  lemma {:induction false} BitsUnique(a: nat, b: nat, w: nat)
    requires a < Pow2(w) && b < Pow2(w)
    requires forall k :: 0 <= k < w ==> Bit(a, k) == Bit(b, k)
    ensures a == b
  {
    if w > 0 {
      assert Bit(a, 0) == Bit(b, 0);
      forall k | 0 <= k < w - 1
        ensures Bit(a / 2, k) == Bit(b / 2, k)
      {
        assert Bit(a, k + 1) == Bit(b, k + 1);
      }
      BitsUnique(a / 2, b / 2, w - 1);
    }
  }

  /** The last digit of the shortest binary string is bit 0, and so on up;
      the string is exactly long enough to hold `x`. */
  lemma {:induction false} ToBinaryBits(x: nat)
    ensures x < Pow2(|ToBinary(x)|)
    ensures forall k :: 0 <= k < |ToBinary(x)| ==> ToBinary(x)[|ToBinary(x)| - 1 - k] == Digit(Bit(x, k))
    ensures forall m: nat :: m >= 1 && x < Pow2(m) ==> |ToBinary(x)| <= m
  {
    if x >= 2 {
      ToBinaryBits(x / 2);
      var b := ToBinary(x);
      assert b == ToBinary(x / 2) + [Digit(x % 2)];
      forall k | 0 <= k < |b|
        ensures b[|b| - 1 - k] == Digit(Bit(x, k))
      {
        if k > 0 {
          assert b[|b| - 1 - k] == ToBinary(x / 2)[|ToBinary(x / 2)| - 1 - (k - 1)];
        }
      }
      forall m: nat | m >= 1 && x < Pow2(m)
        ensures |b| <= m
      {
        assert m >= 2;
        assert x / 2 < Pow2(m - 1);
      }
    }
  }

  /** Digit `i` of the formatted string is bit `Width - 1 - i` of `x`: a
      padding zero stands for a bit above the shortest string. */
  lemma FormatDigit(x: nat, n: nat, i: nat)
    requires i < Width(x, n)
    ensures |Format(x, n)| == Width(x, n)
    ensures Format(x, n)[i] == Digit(Bit(x, Width(x, n) - 1 - i))
  {
    ToBinaryBits(x);
    var b := ToBinary(x);
    var w := Width(x, n);
    if |b| < n {
      if i < n - |b| {
        BitAbove(x, |b|, w - 1 - i);
      } else {
        assert Format(x, n)[i] == b[i - (n - |b|)];
        assert b[|b| - 1 - (w - 1 - i)] == b[i - (n - |b|)];
      }
    } else {
      assert b[|b| - 1 - (w - 1 - i)] == b[i];
    }
  }

  /** The formatted string has the padded width, holds `x`, and its digit
      at position `i` is the bit `Width - 1 - i` of `x`. */
  lemma FormatBits(x: nat, n: nat)
    ensures |Format(x, n)| == Width(x, n)
    ensures x < Pow2(Width(x, n))
    ensures forall i :: 0 <= i < Width(x, n) ==> Format(x, n)[i] == Digit(Bit(x, Width(x, n) - 1 - i))
  {
    ToBinaryBits(x);
    if |ToBinary(x)| < n {
      PowMonotone(|ToBinary(x)|, n);
    }
    forall i | 0 <= i < Width(x, n)
      ensures Format(x, n)[i] == Digit(Bit(x, Width(x, n) - 1 - i))
    {
      FormatDigit(x, n, i);
    }
  }

  lemma {:induction false} PowMonotone(a: nat, b: nat)
    requires a <= b
    ensures Pow2(a) <= Pow2(b)
    decreases b
  {
    if a < b {
      PowMonotone(a, b - 1);
    }
  }

  /** Bit `k` of a parsed string is its digit `k` places from the right,
      and the value fits in as many bits as the string has digits. */
  lemma {:induction false} ParseBits(s: seq<char>)
    requires IsBinary(s)
    ensures Parse(s) < Pow2(|s|)
    ensures forall k :: 0 <= k < |s| ==> Bit(Parse(s), k) == (if s[|s| - 1 - k] == '1' then 1 else 0)
  {
    if |s| > 0 {
      var init := s[..|s| - 1];
      ParseBits(init);
      var p := Parse(s);
      assert p / 2 == Parse(init);
      forall k | 0 <= k < |s|
        ensures Bit(p, k) == (if s[|s| - 1 - k] == '1' then 1 else 0)
      {
        if k > 0 {
          assert Bit(p, k) == Bit(Parse(init), k - 1);
          assert init[|init| - 1 - (k - 1)] == s[|s| - 1 - k];
        }
      }
    }
  }

  /** Parsing undoes formatting: `int('{:0{n}b}'.format(x), 2) == x`. */
  lemma ParseFormat(x: nat, n: nat)
    ensures Parse(Format(x, n)) == x
  {
    var f := Format(x, n);
    FormatBits(x, n);
    ParseBits(f);
    forall k | 0 <= k < |f|
      ensures Bit(Parse(f), k) == Bit(x, k)
    {
      assert f[|f| - 1 - k] == Digit(Bit(x, |f| - 1 - (|f| - 1 - k)));
    }
    BitsUnique(Parse(f), x, |f|);
  }

  /** For `x < 2^n` the padded width is `n` (and 1 when `n` is 0, since
      zero formats as "0"). */
  lemma WidthOfSmall(x: nat, n: nat)
    requires x < Pow2(n)
    ensures n >= 1 ==> Width(x, n) == n
    ensures n == 0 ==> x == 0 && Width(x, n) == 1
  {
    ToBinaryBits(x);
  }

  /** Bit `k` of reverse(x, n) is bit `Width - 1 - k` of `x`, for every `x`:
      the whole padded string is mirrored. */
  lemma ReverseBitsGeneral(x: nat, n: nat)
    ensures Reverse(x, n) < Pow2(Width(x, n))
    ensures forall k :: 0 <= k < Width(x, n) ==> Bit(Reverse(x, n), k) == Bit(x, Width(x, n) - 1 - k)
  {
    var f := Format(x, n);
    var r := Backwards(f);
    var w := Width(x, n);
    FormatBits(x, n);
    ParseBits(r);
    forall k | 0 <= k < w
      ensures Bit(Reverse(x, n), k) == Bit(x, w - 1 - k)
    {
      assert r[w - 1 - k] == f[k];
    }
  }

  /** A number below 2^n reverses to a number below 2^n. */
  lemma ReverseBound(x: nat, n: nat)
    requires x < Pow2(n)
    ensures Reverse(x, n) < Pow2(n)
  {
    ReverseBitsGeneral(x, n);
    WidthOfSmall(x, n);
  }

  /** For `x < 2^n`, bit `k` of reverse(x, n) is bit `n - 1 - k` of `x`. */
  lemma ReverseBits(x: nat, n: nat, k: nat)
    requires x < Pow2(n) && k < n
    ensures Bit(Reverse(x, n), k) == Bit(x, n - 1 - k)
  {
    ReverseBitsGeneral(x, n);
    WidthOfSmall(x, n);
  }

  /** Bit `k` survives reversing twice. */
  lemma InvolutionBit(x: nat, n: nat, k: nat)
    requires x < Pow2(n) && k < n
    ensures Bit(Reverse(Reverse(x, n), n), k) == Bit(x, k)
  {
    ReverseBits(Reverse(x, n), n, k);
    ReverseBits(x, n, n - 1 - k);
  }

  /** Reversing twice at the same width gives back `x`. */
  lemma ReverseInvolution(x: nat, n: nat)
    requires x < Pow2(n)
    ensures Reverse(Reverse(x, n), n) == x
  {
    var z := Reverse(Reverse(x, n), n);
    if n > 0 {
      forall k | 0 <= k < n
        ensures Bit(z, k) == Bit(x, k)
      {
        InvolutionBit(x, n, k);
      }
      BitsUnique(z, x, n);
    }
  }


  /** reverse(., n) permutes the numbers below 2^n: it maps them into
      themselves, is its own inverse there, and so is one-to-one and onto. */
  lemma ReversePermutes(n: nat)
    ensures forall x :: 0 <= x < Pow2(n) ==> Reverse(x, n) < Pow2(n) && Reverse(Reverse(x, n), n) == x
    ensures forall x, y :: 0 <= x < Pow2(n) && 0 <= y < Pow2(n) && Reverse(x, n) == Reverse(y, n) ==> x == y
  {
    forall x | 0 <= x < Pow2(n)
      ensures Reverse(x, n) < Pow2(n) && Reverse(Reverse(x, n), n) == x
    {
      ReverseBound(x, n);
      ReverseInvolution(x, n);
    }
    forall x, y | 0 <= x < Pow2(n) && 0 <= y < Pow2(n) && Reverse(x, n) == Reverse(y, n)
      ensures x == y
    {
      ReverseInvolution(x, n);
      ReverseInvolution(y, n);
    }
  }

  /** A directed graph as networkx holds it here: a vertex set and an arc
      set. */
  datatype Graph = Graph(vertices: set<nat>, arcs: set<(nat, nat)>)

  /** The vertices `lo .. hi-1`. */
  function Upto(lo: nat, hi: nat): (r: set<nat>)
    ensures forall v :: v in r <==> lo <= v < hi
    ensures |r| == if lo < hi then hi - lo else 0
    decreases hi - lo
  {
    if lo < hi then {lo} + Upto(lo + 1, hi) else {}
  }

  /** The arcs `v -> v + 1` for `lo <= v` and `v + 1 < hi`. */
  function Steps(lo: nat, hi: nat): (r: set<(nat, nat)>)
    ensures forall u, v :: (u, v) in r <==> lo <= u && v == u + 1 && v < hi
    decreases hi - lo
  {
    if lo + 1 < hi then {(lo, lo + 1)} + Steps(lo + 1, hi) else {}
  }

  /** `add_path(xrange(lo, hi))`: the vertices `lo .. hi-1` and the arcs
      between consecutive ones. */
  function Path(lo: nat, hi: nat): Graph {
    Graph(Upto(lo, hi), Steps(lo, hi))
  }

  /** The arcs `i -> target(i)` for `lo <= i < hi`, as the loop adding
      them one by one builds them. */
  function ArcsFrom(lo: nat, hi: nat, target: nat -> nat): (r: set<(nat, nat)>)
    ensures forall u, v :: (u, v) in r <==> lo <= u < hi && v == target(u)
    decreases hi - lo
  {
    if lo < hi then {(lo, target(lo))} + ArcsFrom(lo + 1, hi, target) else {}
  }

  /** The cross arcs `i -> N + reverse(i, n)` for `i < N`. */
  function Cross(n: nat): set<(nat, nat)> {
    ArcsFrom(0, Pow2(n), i => Pow2(n) + Reverse(i, n))
  }

  /** The vertex and arc sets of bit_reversal_graph(n), before they are put
      together: the two paths cover 0 .. 2N-1, and each step and each cross
      arc goes upwards. */
  lemma GraphParts(n: nat)
    ensures forall v: nat :: v in Upto(0, Pow2(n)) + Upto(Pow2(n), 2 * Pow2(n)) <==> v < 2 * Pow2(n)
    ensures forall u: nat, v: nat :: (u, v) in Steps(0, Pow2(n)) + Steps(Pow2(n), 2 * Pow2(n)) ==> u < v
    ensures forall u: nat, v: nat :: (u, v) in Cross(n) ==> u < v
  {
  }

  /** bit_reversal_graph(n): its vertices are 0 .. 2N-1 and every arc goes
      from a smaller vertex to a larger one. */
  function BitReversalGraph(n: nat): (r: Graph)
    ensures forall v: nat :: v in r.vertices <==> v < 2 * Pow2(n)
    ensures forall u: nat, v: nat :: (u, v) in r.arcs ==> u < v
  {
    var N := Pow2(n);
    var first := Path(0, N);
    var second := Path(N, 2 * N);
    GraphParts(n);
    Graph(first.vertices + second.vertices, first.arcs + second.arcs + Cross(n))
  }


  predicate HasArc(g: Graph, u: nat, v: nat) {
    (u, v) in g.arcs
  }

  /** The graph has the 2N = 2^(n+1) vertices 0 .. 2N-1. */
  lemma GraphVertices(n: nat)
    ensures forall v: nat :: v in BitReversalGraph(n).vertices <==> v < Pow2(n + 1)
    ensures |BitReversalGraph(n).vertices| == Pow2(n + 1)
  {
    var N := Pow2(n);
    assert Pow2(n + 1) == 2 * N;
    assert BitReversalGraph(n).vertices == Upto(0, 2 * N);
  }

  /** Its arcs are the two path arcs and the cross arcs, and nothing else. */
  lemma GraphArcs(n: nat, u: nat, v: nat)
    ensures var N := Pow2(n);
            HasArc(BitReversalGraph(n), u, v) <==>
              || (v == u + 1 && v < N)
              || (N <= u && v == u + 1 && v < 2 * N)
              || (u < N && v == N + Reverse(u, n))
  {
  }

  /** Every arc goes from a smaller to a larger vertex, both in the graph,
      so the vertex order is a topological order and the graph is acyclic. */
  lemma GraphForward(n: nat)
    ensures forall u: nat, v: nat :: HasArc(BitReversalGraph(n), u, v) ==>
              u < v && u in BitReversalGraph(n).vertices && v in BitReversalGraph(n).vertices
  {
    var N := Pow2(n);
    var g := BitReversalGraph(n);
    forall u: nat, v: nat | HasArc(g, u, v)
      ensures u < v && u in g.vertices && v in g.vertices
    {
      GraphArcs(n, u, v);
      if u < N && v == N + Reverse(u, n) {
        ReverseBound(u, n);
      }
    }
  }

  /** The only arcs from the first half into the second are cross arcs. */
  lemma ArcIntoSecondHalf(n: nat, y: nat, u: nat)
    requires y < Pow2(n) && u < Pow2(n)
    ensures HasArc(BitReversalGraph(n), u, Pow2(n) + y) ==> Reverse(u, n) == y
    ensures Reverse(u, n) == y ==> HasArc(BitReversalGraph(n), u, Pow2(n) + y)
  {
    var N := Pow2(n);
    var v := N + y;
    var g := BitReversalGraph(n);
    assert g.arcs == Steps(0, N) + Steps(N, 2 * N) + Cross(n);
    assert (u, v) !in Steps(0, N) && (u, v) !in Steps(N, 2 * N);
    assert (u, v) in Cross(n) <==> v == N + Reverse(u, n);
    assert HasArc(g, u, v) <==> (u, v) in Cross(n);
    assert (u, v) in Cross(n) <==> Reverse(u, n) == y;
  }

  /** Each second-half vertex `N + y` receives exactly one arc from the
      first half: the cross arc from reverse(y, n). */
  lemma GraphCrossArcs(n: nat, y: nat, u: nat)
    requires y < Pow2(n) && u < Pow2(n)
    ensures HasArc(BitReversalGraph(n), u, Pow2(n) + y) ==> u == Reverse(y, n)
    ensures u == Reverse(y, n) ==> HasArc(BitReversalGraph(n), u, Pow2(n) + y)
  {
    ArcIntoSecondHalf(n, y, u);
    ReverseInvolution(y, n);
    ReverseInvolution(u, n);
  }
}

=== FILE: cursor_list.dfy ===
/** The singly-linked cursor list of dsbasic.c, seen abstractly: the payloads
    from head to tail, and the index of the cursor node. The index `|items|`
    stands for the null cursor ("past the end"), which is also the only cursor
    an empty list has. Module SinglyLinked shows that the pointer structure
    refines this view. */
module CursorList {

  datatype SList<T> = SList(items: seq<T>, cursor: nat)

  /** The cursor is on a node or just past the tail. */
  predicate Valid<T>(l: SList<T>) {
    l.cursor <= |l.items|
  }

  predicate IsEmpty<T>(l: SList<T>) {
    |l.items| == 0
  }

  /** The cursor names a node (it is not null). */
  predicate CursorValid<T>(l: SList<T>) {
    l.cursor < |l.items|
  }

  /** newSL: no nodes, null cursor. */
  function New<T>(): (r: SList<T>)
    ensures Valid(r) && IsEmpty(r) && !CursorValid(r)
  {
    SList([], 0)
  }

  /** insertSL: the new node goes immediately before the cursor node. With
      `before` the cursor stays on the node it was on; otherwise it moves to
      the new node. The tail node is unchanged. */
  function Insert<T>(l: SList<T>, d: T, before: bool): (r: SList<T>)
    requires CursorValid(l)
    ensures Valid(r) && CursorValid(r)
    ensures |r.items| == |l.items| + 1
    ensures r.items[l.cursor] == d
    ensures forall i :: 0 <= i < l.cursor ==> r.items[i] == l.items[i]
    ensures forall i :: l.cursor <= i < |l.items| ==> r.items[i + 1] == l.items[i]
    ensures r.items[|r.items| - 1] == l.items[|l.items| - 1]
    ensures before ==> r.cursor == l.cursor + 1 && r.items[r.cursor] == l.items[l.cursor]
    ensures !before ==> r.cursor == l.cursor && r.items[r.cursor] == d
  {
    var c := l.cursor;
    SList(l.items[..c] + [d] + l.items[c..], if before then c + 1 else c)
  }

  /** appendSL: the new node goes after the tail whatever the cursor. On an
      empty list, or when the cursor had run past the end, the new node
      becomes the cursor; otherwise the cursor is untouched. Either way the
      cursor index does not change and afterwards names a node. */
  function Append<T>(l: SList<T>, d: T): (r: SList<T>)
    requires Valid(l)
    ensures Valid(r) && CursorValid(r)
    ensures |r.items| == |l.items| + 1
    ensures r.items[..|l.items|] == l.items && r.items[|l.items|] == d
    ensures r.cursor == l.cursor
    ensures !CursorValid(l) ==> r.items[r.cursor] == d
    ensures CursorValid(l) ==> r.items[r.cursor] == l.items[l.cursor]
  {
    SList(l.items + [d], l.cursor)
  }

  /** consSL: push at the head and put the cursor on the new head. On an
      empty list this is appendSL; a non-empty list must have a valid cursor. */
  function Cons<T>(d: T, l: SList<T>): (r: SList<T>)
    requires Valid(l)
    requires IsEmpty(l) || CursorValid(l)
    ensures Valid(r) && CursorValid(r)
    ensures IsEmpty(l) ==> r == Append(l, d)
    ensures r.items[0] == d && r.items[1..] == l.items
    ensures r.cursor == 0
  {
    if IsEmpty(l) then Append(l, d) else SList([d] + l.items, 0)
  }

  /** delete_and_nextSL: remove the cursor node. The cursor index stays, so it
      names the old successor, or is null when the tail was removed. */
  function DeleteAndNext<T>(l: SList<T>): (r: SList<T>)
    requires CursorValid(l)
    ensures Valid(r)
    ensures |r.items| == |l.items| - 1
    ensures forall i :: 0 <= i < l.cursor ==> r.items[i] == l.items[i]
    ensures forall i :: l.cursor <= i < |r.items| ==> r.items[i] == l.items[i + 1]
    ensures r.cursor == l.cursor
    ensures CursorValid(r) <==> l.cursor + 1 < |l.items|
  {
    var c := l.cursor;
    SList(l.items[..c] + l.items[c + 1..], c)
  }

  /** Deleting the node that a non-`before` insertion just created restores
      the list exactly. */
  lemma InsertThenDelete<T>(l: SList<T>, d: T)
    requires CursorValid(l)
    ensures DeleteAndNext(Insert(l, d, false)) == l
  {
    var r := DeleteAndNext(Insert(l, d, false));
    assert r.items == l.items;
  }

  /** Deleting the head that consSL pushed gives back the old payloads, with
      the cursor on the old head. */
  lemma ConsThenDelete<T>(d: T, l: SList<T>)
    requires Valid(l)
    requires IsEmpty(l) || CursorValid(l)
    ensures DeleteAndNext(Cons(d, l)) == SList(l.items, 0)
  {
  }

  /** The payloads a sequence of appends to an empty list leaves behind. */
  function AppendAll<T>(l: SList<T>, ds: seq<T>): (r: SList<T>)
    requires Valid(l)
    ensures Valid(r)
    decreases |ds|
  {
    if |ds| == 0 then l else AppendAll(Append(l, ds[0]), ds[1..])
  }

  /** Appending keeps the order of insertion: the list holds the old payloads
      followed by the appended ones, and the cursor index never moves. */
  lemma {:induction false} AppendAllOrder<T>(l: SList<T>, ds: seq<T>)
    requires Valid(l)
    ensures AppendAll(l, ds).items == l.items + ds
    ensures AppendAll(l, ds).cursor == l.cursor
    decreases |ds|
  {
    if |ds| > 0 {
      AppendAllOrder(Append(l, ds[0]), ds[1..]);
      assert l.items + [ds[0]] + ds[1..] == l.items + ds;
    }
  }
}

=== FILE: dag.dfy ===
/** The DAG record of dag.c: a vertex count, per-vertex degrees, per-vertex
    incoming and outgoing neighbour buffers, and the source and sink arrays
    that dag_precompute_data derives once. A buffer is a sequence whose length
    is its allocated length. */
module Dag {
  import opened Wrappers

  type Vertex = nat

  /** The derived arrays; `sources`/`sinks` being null is `derived == None`.
      source_number and sink_number are their lengths. */
  datatype Derived = Derived(sources: seq<Vertex>, sinks: seq<Vertex>)

  datatype DAG = DAG(
    size: nat,
    indegree: seq<nat>,
    outdegree: seq<nat>,
    inArcs: seq<seq<Vertex>>,
    outArcs: seq<seq<Vertex>>,
    derived: Option<Derived>)

  /** The ways dag_precompute_data aborts. */
  datatype DagError = AlreadyPrecomputed | NoSource | NoSink

  /** Degree arrays and buffer arrays have one entry per vertex. */
  predicate WellSized(d: DAG) {
    && |d.indegree| == d.size
    && |d.outdegree| == d.size
    && |d.inArcs| == d.size
    && |d.outArcs| == d.size
  }

  /** Every buffer is as long as the degree recorded for it. */
  predicate BuffersMatch(d: DAG) {
    && WellSized(d)
    && (forall v :: 0 <= v < d.size ==> |d.inArcs[v]| == d.indegree[v])
    && (forall v :: 0 <= v < d.size ==> |d.outArcs[v]| == d.outdegree[v])
  }

  /** Every arc is listed at both ends: `w` is an out-neighbour of `v` exactly
      when `v` is an in-neighbour of `w`. dag.c treats this as advisory. */
  predicate Mirrored(d: DAG)
    requires WellSized(d)
  {
    && (forall v, k :: 0 <= v < d.size && 0 <= k < |d.outArcs[v]| ==>
          d.outArcs[v][k] < d.size && v in d.inArcs[d.outArcs[v][k]])
    && (forall w, k :: 0 <= w < d.size && 0 <= k < |d.inArcs[w]| ==>
          d.inArcs[w][k] < d.size && w in d.outArcs[d.inArcs[w][k]])
  }

  predicate Increasing(xs: seq<Vertex>) {
    forall i, j :: 0 <= i < j < |xs| ==> xs[i] < xs[j]
  }

  /** `xs` lists, in increasing order, exactly the vertices whose degree in
      `deg` is zero. */
  ghost predicate ListsZeros(xs: seq<Vertex>, deg: seq<nat>) {
    && Increasing(xs)
    && (forall v :: v in xs <==> 0 <= v < |deg| && deg[v] == 0)
  }

  predicate HasZero(deg: seq<nat>) {
    exists v :: 0 <= v < |deg| && deg[v] == 0
  }

  /** The vertices of degree zero, scanned in increasing vertex order. */
  function Zeros(deg: seq<nat>): (r: seq<Vertex>)
    ensures ListsZeros(r, deg)
    ensures forall i :: 0 <= i < |r| ==> r[i] < |deg|
  {
    if |deg| == 0 then []
    else
      var n := |deg| - 1;
      var init := Zeros(deg[..n]);
      assert forall v :: 0 <= v < n ==> deg[..n][v] == deg[v];
      if deg[n] == 0 then init + [n] else init
  }

  /** Two increasing lists with the same members are the same list. */
  lemma {:induction false} IncreasingUnique(xs: seq<Vertex>, ys: seq<Vertex>)
    requires Increasing(xs) && Increasing(ys)
    requires forall v :: v in xs <==> v in ys
    ensures xs == ys
    decreases |xs| + |ys|
  {
    assert |xs| > 0 ==> xs[0] in ys;
    assert |ys| > 0 ==> ys[0] in xs;
    if |xs| > 0 && |ys| > 0 {
      assert xs[0] == ys[0];
      forall v
        ensures v in xs[1..] <==> v in ys[1..]
      {
        if v in xs[1..] {
          assert v in ys && v != ys[0];
        }
        if v in ys[1..] {
          assert v in xs && v != xs[0];
        }
      }
      IncreasingUnique(xs[1..], ys[1..]);
      assert xs == [xs[0]] + xs[1..];
      assert ys == [ys[0]] + ys[1..];
    }
  }

  /** Scanning one more vertex appends it when its degree is zero. */
  lemma ZerosStep(deg: seq<nat>, i: nat)
    requires i < |deg|
    ensures Zeros(deg[..i + 1]) == Zeros(deg[..i]) + (if deg[i] == 0 then [i] else [])
  {
    assert deg[..i + 1][..i] == deg[..i];
  }

  /** The sorted list of zeros is unique, so it is the one Zeros computes. */
  lemma ListsZerosIsZeros(xs: seq<Vertex>, deg: seq<nat>)
    requires ListsZeros(xs, deg)
    ensures xs == Zeros(deg)
  {
    IncreasingUnique(xs, Zeros(deg));
  }

  /** The set of vertices of degree zero. */
  function ZeroSet(deg: seq<nat>): set<Vertex> {
    set v | 0 <= v < |deg| && deg[v] == 0
  }

  /** A list of the zeros has as many entries as there are zeros: the count
      dag_precompute_data stores in source_number and sink_number. */
  lemma {:induction false} ZerosCount(deg: seq<nat>)
    ensures |Zeros(deg)| == |ZeroSet(deg)|
  {
    if |deg| > 0 {
      var n := |deg| - 1;
      ZerosCount(deg[..n]);
      var before := ZeroSet(deg[..n]);
      var added: set<Vertex> := if deg[n] == 0 then {n} else {};
      assert |Zeros(deg)| == |Zeros(deg[..n])| + |added|;
      assert ZeroSet(deg) == before + added by {
        assert forall v :: v in before <==> 0 <= v < n && deg[v] == 0;
      }
      assert before !! added;
    }
  }

  /** dag_precompute_data as a function: aborts when the derived arrays are
      already present, when there is no source, or when there is no sink;
      otherwise records the sources (indegree 0) and sinks (outdegree 0) in
      increasing vertex order and changes nothing else. */
  function Precompute(d: DAG): (r: Result<DAG, DagError>)
    requires WellSized(d)
    ensures d.derived.Some? ==> r == Failure(AlreadyPrecomputed)
    ensures d.derived.None? && !HasZero(d.indegree) ==> r == Failure(NoSource)
    ensures d.derived.None? && HasZero(d.indegree) && !HasZero(d.outdegree) ==> r == Failure(NoSink)
    ensures r.Success? <==> d.derived.None? && HasZero(d.indegree) && HasZero(d.outdegree)
    ensures r.Success? ==>
              && r.value.derived.Some?
              && r.value == d.(derived := r.value.derived)
              && ListsZeros(r.value.derived.value.sources, d.indegree)
              && ListsZeros(r.value.derived.value.sinks, d.outdegree)
              && |r.value.derived.value.sources| > 0
              && |r.value.derived.value.sinks| > 0
  {
    if d.derived.Some? then Failure(AlreadyPrecomputed)
    else
      var sources := Zeros(d.indegree);
      var sinks := Zeros(d.outdegree);
      if |sources| == 0 then
        assert !HasZero(d.indegree);
        Failure(NoSource)
      else if |sinks| == 0 then
        assert sources[0] in sources;
        assert !HasZero(d.outdegree);
        Failure(NoSink)
      else
        assert sources[0] in sources && sinks[0] in sinks;
        Success(d.(derived := Some(Derived(sources, sinks))))
  }

  /** One counting scan of dag_precompute_data: how many entries of `deg`
      are zero. */
  method CountZeros(deg: seq<nat>) returns (n: nat)
    ensures n == |Zeros(deg)|
  {
    n := 0;
    var i := 0;
    while i < |deg|
      invariant i <= |deg|
      invariant n == |Zeros(deg[..i])|
    {
      ZerosStep(deg, i);
      if deg[i] == 0 {
        n := n + 1;
      }
      i := i + 1;
    }
    assert deg[..i] == deg;
  }

  /** One filling scan: the vertices of degree zero in vertex order. */
  method CollectZeros(deg: seq<nat>) returns (xs: seq<Vertex>)
    ensures ListsZeros(xs, deg)
  {
    xs := [];
    var i := 0;
    while i < |deg|
      invariant i <= |deg|
      invariant xs == Zeros(deg[..i])
    {
      ZerosStep(deg, i);
      if deg[i] == 0 {
        xs := xs + [i];
      }
      i := i + 1;
    }
    assert deg[..i] == deg;
  }

  /** dag_precompute_data as the source writes it: a counting pass, the two
      abort checks, then a pass that fills the arrays in vertex order. The
      source scans indegrees and outdegrees in the same loop; here each
      pass is two scans, which computes the same values. */
  method PrecomputeData(d: DAG) returns (r: Result<DAG, DagError>)
    requires WellSized(d)
    ensures r == Precompute(d)
  {
    if d.derived.Some? {
      return Failure(AlreadyPrecomputed);
    }
    var sourceNumber := CountZeros(d.indegree);
    var sinkNumber := CountZeros(d.outdegree);
    if sourceNumber == 0 {
      return Failure(NoSource);
    }
    if sinkNumber == 0 {
      return Failure(NoSink);
    }
    var sources := CollectZeros(d.indegree);
    var sinks := CollectZeros(d.outdegree);
    ListsZerosIsZeros(sources, d.indegree);
    ListsZerosIsZeros(sinks, d.outdegree);
    return Success(d.(derived := Some(Derived(sources, sinks))));
  }
}

=== FILE: dictionary.dfy ===
/** The open-hashing dictionary declared in hashtable.h: an array of cursor
    lists (buckets), a record count, and caller-supplied key and equality
    strategies. A record lives in the bucket its key selects modulo the
    allocation, and each bucket keeps its records in insertion order. The
    disposal strategy only frees memory and is not modelled. */
module Dictionary {
  import opened Wrappers
  import CursorList

  datatype Dict<!T> = Dict(
    allocation: nat,
    size: nat,
    buckets: seq<CursorList.SList<T>>,
    key: T -> nat,
    eq: (T, T) -> bool)

  /** DictQueryResult: the record's key, a matching stored record (None for
      the null pointer), the bucket index and the links traversed. */
  datatype QueryResult<T> = QueryResult(key: nat, value: Option<T>, bucket: nat, hops: nat)

  /** The strategies a caller must supply: an equality that is reflexive and
      symmetric, and a key function that gives equal records equal keys. */
  ghost predicate Strategies<T(!new)>(d: Dict<T>) {
    && (forall a :: d.eq(a, a))
    && (forall a, b :: d.eq(a, b) == d.eq(b, a))
    && (forall a, b :: d.eq(a, b) ==> d.key(a) == d.key(b))
  }

  /** The number of records over all buckets. */
  function Total<T>(bs: seq<CursorList.SList<T>>): nat {
    if |bs| == 0 then 0 else Total(bs[..|bs| - 1]) + |bs[|bs| - 1].items|
  }

  /** The bucket a record hashes to. */
  function BucketOf<T>(d: Dict<T>, data: T): nat
    requires d.allocation > 0
  {
    d.key(data) % d.allocation
  }

  /** The dictionary's shape: one bucket per allocated slot, every record in
      the bucket its key selects, and `size` counting the records. */
  predicate Valid<T>(d: Dict<T>) {
    && d.allocation > 0
    && |d.buckets| == d.allocation
    && (forall b :: 0 <= b < |d.buckets| ==> CursorList.Valid(d.buckets[b]))
    && (forall b, i :: 0 <= b < |d.buckets| && 0 <= i < |d.buckets[b].items| ==>
          BucketOf(d, d.buckets[b].items[i]) == b)
    && d.size == Total(d.buckets)
  }

  /** Within a bucket, no record equals a record stored after it. */
  predicate Unique<T>(d: Dict<T>) {
    forall b, i, j :: 0 <= b < |d.buckets| && 0 <= i < j < |d.buckets[b].items| ==>
      !d.eq(d.buckets[b].items[i], d.buckets[b].items[j])
  }

  /** The chain a record's lookup walks. */
  function Chain<T>(d: Dict<T>, data: T): seq<T>
    requires Valid(d)
  {
    d.buckets[BucketOf(d, data)].items
  }

  /** newDict: `allocation` empty buckets. */
  function NewDict<T(!new)>(allocation: nat, key: T -> nat, eq: (T, T) -> bool): (r: Dict<T>)
    requires allocation > 0
    ensures Valid(r) && Unique(r) && r.size == 0 && r.allocation == allocation
    ensures forall data :: |Chain(r, data)| == 0
  {
    var r := Dict(allocation, 0, seq(allocation, _ => CursorList.New()), key, eq);
    assert Total(r.buckets) == 0 by {
      TotalEmpty(r.buckets);
    }
    r
  }

  lemma {:induction false} TotalEmpty<T>(bs: seq<CursorList.SList<T>>)
    requires forall b :: 0 <= b < |bs| ==> |bs[b].items| == 0
    ensures Total(bs) == 0
  {
    if |bs| > 0 {
      TotalEmpty(bs[..|bs| - 1]);
    }
  }

  /** Replacing one bucket changes the record count by the change in that
      bucket's length. */
  lemma {:induction false} TotalUpdate<T>(bs: seq<CursorList.SList<T>>, b: nat, l: CursorList.SList<T>)
    requires b < |bs|
    ensures Total(bs[b := l]) + |bs[b].items| == Total(bs) + |l.items|
  {
    var n := |bs| - 1;
    if b < n {
      TotalUpdate(bs[..n], b, l);
      assert bs[b := l][..n] == bs[..n][b := l];
    } else {
      assert bs[b := l][..n] == bs[..n];
    }
  }

  /** Index of the first record of `xs` equal to `data`, or |xs| if none. */
  function FirstMatch<T>(xs: seq<T>, data: T, eq: (T, T) -> bool): (r: nat)
    ensures r <= |xs|
    ensures r < |xs| ==> eq(xs[r], data)
    ensures forall i :: 0 <= i < r ==> !eq(xs[i], data)
  {
    if |xs| == 0 then 0
    else if eq(xs[0], data) then 0
    else 1 + FirstMatch(xs[1..], data, eq)
  }

  /** queryDict: hash the record to its bucket and walk the chain in
      insertion order; the result holds the first stored record equal to
      `data` (or none) and counts the links visited, the whole chain on a
      miss. */
  function Query<T>(d: Dict<T>, data: T): (r: QueryResult<T>)
    requires Valid(d)
    ensures r.key == d.key(data) && r.bucket == r.key % d.allocation && r.bucket < d.allocation
    ensures r.value.Some? <==> exists i :: 0 <= i < |Chain(d, data)| && d.eq(Chain(d, data)[i], data)
    ensures r.value.Some? ==>
              && 1 <= r.hops <= |Chain(d, data)|
              && Chain(d, data)[r.hops - 1] == r.value.value
              && d.eq(r.value.value, data)
              && (forall i :: 0 <= i < r.hops - 1 ==> !d.eq(Chain(d, data)[i], data))
    ensures r.value.None? ==> r.hops == |Chain(d, data)|
  {
    var chain := Chain(d, data);
    var k := FirstMatch(chain, data, d.eq);
    QueryResult(d.key(data), if k < |chain| then Some(chain[k]) else None,
                BucketOf(d, data), if k < |chain| then k + 1 else |chain|)
  }

  /** queryDict as a walk down the bucket, one hop per link. */
  method QueryDict<T>(d: Dict<T>, data: T) returns (r: QueryResult<T>)
    requires Valid(d)
    ensures r == Query(d, data)
  {
    var key := d.key(data);
    var bucket := key % d.allocation;
    var chain := d.buckets[bucket].items;
    var hops := 0;
    while hops < |chain| && !d.eq(chain[hops], data)
      invariant hops <= |chain|
      invariant FirstMatch(chain, data, d.eq) == hops + FirstMatch(chain[hops..], data, d.eq)
    {
      assert chain[hops..][1..] == chain[hops + 1..];
      hops := hops + 1;
    }
    if hops < |chain| {
      return QueryResult(key, Some(chain[hops]), bucket, hops + 1);
    }
    return QueryResult(key, None, bucket, hops);
  }

  /** Append `data` to its bucket without looking for an equal record. */
  function Store<T>(d: Dict<T>, data: T): (r: Dict<T>)
    requires Valid(d)
    ensures Valid(r) && r.size == d.size + 1
    ensures r.allocation == d.allocation && r.key == d.key && r.eq == d.eq
    ensures Chain(r, data) == Chain(d, data) + [data]
    ensures forall b :: 0 <= b < |d.buckets| && b != BucketOf(d, data) ==> r.buckets[b] == d.buckets[b]
  {
    var b := BucketOf(d, data);
    var l := CursorList.Append(d.buckets[b], data);
    var r := d.(buckets := d.buckets[b := l], size := d.size + 1);
    TotalUpdate(d.buckets, b, l);
    assert l.items == d.buckets[b].items + [data];
    r
  }

  /** unsafe_noquery_writeDict: store without a preceding query. */
  function UnsafeWrite<T>(d: Dict<T>, data: T): (r: Dict<T>)
    requires Valid(d)
    ensures Valid(r) && r.size == d.size + 1 && |r.buckets| == |d.buckets|
    ensures Chain(r, data) == Chain(d, data) + [data]
    ensures forall b :: 0 <= b < |d.buckets| && b != BucketOf(d, data) ==> r.buckets[b] == d.buckets[b]
  {
    Store(d, data)
  }

  /** writeDict: query first; a record equal to a stored one is refused and
      the dictionary is unchanged, otherwise the record is appended to its
      bucket. The result is the lookup's. */
  function Write<T>(d: Dict<T>, data: T): (r: (Dict<T>, QueryResult<T>))
    requires Valid(d)
    ensures Valid(r.0) && r.0.allocation == d.allocation && r.0.key == d.key && r.0.eq == d.eq
    ensures r.1 == Query(d, data)
    ensures r.1.value.Some? ==> r.0 == d
    ensures r.1.value.None? ==>
              && r.0.size == d.size + 1 && |r.0.buckets| == |d.buckets|
              && Chain(r.0, data) == Chain(d, data) + [data]
              && forall b :: 0 <= b < |d.buckets| && b != BucketOf(d, data) ==> r.0.buckets[b] == d.buckets[b]
    ensures Unique(d) ==> Unique(r.0)
  {
    var q := Query(d, data);
    if q.value.Some? then (d, q)
    else
      var r := Store(d, data);
      assert Unique(d) ==> Unique(r) by {
        if Unique(d) {
          var b := BucketOf(d, data);
          forall b', i, j | 0 <= b' < |r.buckets| && 0 <= i < j < |r.buckets[b'].items|
            ensures !r.eq(r.buckets[b'].items[i], r.buckets[b'].items[j])
          {
            if b' == b && j == |r.buckets[b'].items| - 1 {
              assert r.buckets[b'].items[i] == Chain(d, data)[i];
            }
          }
        }
      }
      (r, q)
  }

  /** Round trip: after a write, a query for the same record finds a stored
      record equal to it, within the bucket's chain; if the write stored it,
      the query returns exactly it, and if the write was refused, the query
      returns the record stored earlier. */
  lemma WriteThenQuery<T(!new)>(d: Dict<T>, data: T)
    requires Valid(d) && Strategies(d)
    ensures var (d', res) := Write(d, data);
            var q := Query(d', data);
            && q.value.Some? && d.eq(q.value.value, data)
            && 1 <= q.hops <= |Chain(d', data)|
            && (res.value.None? ==> q.value == Some(data) && q.hops == |Chain(d', data)|)
            && (res.value.Some? ==> q == res)
  {
    var (d', res) := Write(d, data);
    if res.value.None? {
      var chain := Chain(d', data);
      assert d'.eq(chain[|chain| - 1], data);
      var k := FirstMatch(chain, data, d'.eq);
      assert k == |chain| - 1 by {
        assert forall i :: 0 <= i < |chain| - 1 ==> !d.eq(chain[i], data) by {
          assert forall i :: 0 <= i < |chain| - 1 ==> chain[i] == Chain(d, data)[i];
        }
      }
    }
  }

  /** A refused write changes nothing: the size stays and the record stored
      earlier is what later queries find. */
  lemma DuplicateWriteKeepsSize<T>(d: Dict<T>, data: T)
    requires Valid(d) && Query(d, data).value.Some?
    ensures Write(d, data).0.size == d.size
    ensures Query(Write(d, data).0, data) == Query(d, data)
  {
  }

  /** Without an equal stored record the unsafe write is the guarded one. */
  lemma UnsafeWriteWithoutMatch<T>(d: Dict<T>, data: T)
    requires Valid(d) && Query(d, data).value.None?
    ensures UnsafeWrite(d, data) == Write(d, data).0
  {
  }

  /** With an equal stored record the unsafe write breaks uniqueness. */
  lemma UnsafeWriteBreaksUnique<T(!new)>(d: Dict<T>, data: T)
    requires Valid(d) && Strategies(d) && Query(d, data).value.Some?
    ensures !Unique(UnsafeWrite(d, data))
  {
    var q := Query(d, data);
    var r := UnsafeWrite(d, data);
    var b := BucketOf(d, data);
    var chain := r.buckets[b].items;
    assert chain[q.hops - 1] == q.value.value && chain[|chain| - 1] == data;
    assert r.eq(chain[q.hops - 1], chain[|chain| - 1]);
  }

  /** With strategies as required, two different stored slots never hold
      equal records, in the same bucket or not. */
  lemma NoEqualPair<T(!new)>(d: Dict<T>, b: nat, i: nat, c: nat, j: nat)
    requires Valid(d) && Strategies(d) && Unique(d)
    requires b < |d.buckets| && i < |d.buckets[b].items|
    requires c < |d.buckets| && j < |d.buckets[c].items|
    requires (b, i) != (c, j)
    ensures !d.eq(d.buckets[b].items[i], d.buckets[c].items[j])
  {
  }

  /** Write the records of `ds` one after another. */
  function WriteAll<T>(d: Dict<T>, ds: seq<T>): (r: Dict<T>)
    requires Valid(d)
    ensures Valid(r) && r.allocation == d.allocation && r.key == d.key && r.eq == d.eq
    ensures Unique(d) ==> Unique(r)
    decreases |ds|
  {
    if |ds| == 0 then d else WriteAll(Write(d, ds[0]).0, ds[1..])
  }

  /** The record `data` if writing it into `d` stores it, else nothing. */
  function Kept<T>(d: Dict<T>, data: T): seq<T>
    requires Valid(d)
  {
    if Query(d, data).value.None? then [data] else []
  }

  /** The records of `ds` that writing them into `d` in order stores. */
  function Accepted<T>(d: Dict<T>, ds: seq<T>): seq<T>
    requires Valid(d)
    decreases |ds|
  {
    if |ds| == 0 then []
    else
      Kept(d, ds[0]) + Accepted(Write(d, ds[0]).0, ds[1..])
  }

  /** The records of `xs` that hash to bucket `b`, in order. */
  function InBucket<T>(d: Dict<T>, xs: seq<T>, b: nat): (r: seq<T>)
    requires d.allocation > 0
    decreases |xs|
  {
    if |xs| == 0 then []
    else (if BucketOf(d, xs[0]) == b then [xs[0]] else []) + InBucket(d, xs[1..], b)
  }

  lemma {:induction false} InBucketConcat<T>(d: Dict<T>, xs: seq<T>, ys: seq<T>, b: nat)
    requires d.allocation > 0
    ensures InBucket(d, xs + ys, b) == InBucket(d, xs, b) + InBucket(d, ys, b)
    decreases |xs|
  {
    if |xs| == 0 {
      assert xs + ys == ys;
    } else {
      InBucketConcat(d, xs[1..], ys, b);
      assert (xs + ys)[0] == xs[0] && (xs + ys)[1..] == xs[1..] + ys;
    }
  }

  /** One write adds to bucket `b` exactly the records it keeps that hash
      there. */
  lemma WriteStep<T>(d: Dict<T>, data: T, b: nat)
    requires Valid(d) && b < d.allocation
    ensures Write(d, data).0.buckets[b].items == d.buckets[b].items + InBucket(d, Kept(d, data), b)
  {
    if Query(d, data).value.None? {
      assert Kept(d, data)[1..] == [];
    }
  }

  /** The bucket-`b` part of the insertion-order argument, one write deep. */
  lemma OrderStep<T>(d: Dict<T>, ds: seq<T>, b: nat)
    requires Valid(d) && |ds| > 0 && b < d.allocation
    requires var d1 := Write(d, ds[0]).0;
             WriteAll(d1, ds[1..]).buckets[b].items ==
               d1.buckets[b].items + InBucket(d1, Accepted(d1, ds[1..]), b)
    ensures WriteAll(d, ds).buckets[b].items == d.buckets[b].items + InBucket(d, Accepted(d, ds), b)
  {
    var d1 := Write(d, ds[0]).0;
    var rest := Accepted(d1, ds[1..]);
    var old_, kept, later := d.buckets[b].items, InBucket(d, Kept(d, ds[0]), b), InBucket(d, rest, b);
    assert InBucket(d, Accepted(d, ds), b) == kept + later by {
      assert Accepted(d, ds) == Kept(d, ds[0]) + rest;
      InBucketConcat(d, Kept(d, ds[0]), rest, b);
    }
    assert WriteAll(d, ds).buckets[b].items == d1.buckets[b].items + InBucket(d1, rest, b) by {
      assert WriteAll(d, ds) == WriteAll(d1, ds[1..]);
    }
    assert InBucket(d1, rest, b) == later by {
      InBucketSameKey(d1, d, rest, b);
    }
    assert d1.buckets[b].items == old_ + kept by {
      WriteStep(d, ds[0], b);
    }
    ConcatAssoc(old_, kept, later);
  }

  lemma ConcatAssoc<T>(a: seq<T>, b: seq<T>, c: seq<T>)
    ensures (a + b) + c == a + (b + c)
  {
  }

  /** Insertion order: after a run of writes every bucket holds its old
      records followed by the accepted records that hash to it, in the order
      they were written, and the size grows by the number accepted. */
  lemma {:induction false} WriteAllOrder<T>(d: Dict<T>, ds: seq<T>)
    requires Valid(d)
    ensures WriteAll(d, ds).size == d.size + |Accepted(d, ds)|
    ensures forall b :: 0 <= b < d.allocation ==>
              WriteAll(d, ds).buckets[b].items == d.buckets[b].items + InBucket(d, Accepted(d, ds), b)
    decreases |ds|
  {
    if |ds| > 0 {
      var d1 := Write(d, ds[0]).0;
      WriteAllOrder(d1, ds[1..]);
      assert Accepted(d, ds) == Kept(d, ds[0]) + Accepted(d1, ds[1..]);
      forall b | 0 <= b < d.allocation
        ensures WriteAll(d, ds).buckets[b].items == d.buckets[b].items + InBucket(d, Accepted(d, ds), b)
      {
        OrderStep(d, ds, b);
      }
    }
  }

  lemma {:induction false} InBucketSameKey<T>(d: Dict<T>, e: Dict<T>, xs: seq<T>, b: nat)
    requires d.allocation > 0 && d.allocation == e.allocation && d.key == e.key
    ensures InBucket(d, xs, b) == InBucket(e, xs, b)
    decreases |xs|
  {
    if |xs| > 0 {
      InBucketSameKey(d, e, xs[1..], b);
    }
  }

  /** Payloads for the example: a key and a tag telling writes apart. */
  function ExampleKey(p: (nat, nat)): nat { p.0 }
  function ExampleEq(p: (nat, nat), q: (nat, nat)): bool { p.0 == q.0 }

  /** A four-bucket example dictionary holding `b1`, `b2`, `b3` in buckets
      1 to 3 and nothing in bucket 0. */
  function Example(size: nat, b1: seq<(nat, nat)>, b2: seq<(nat, nat)>, b3: seq<(nat, nat)>): Dict<(nat, nat)> {
    Dict(4, size,
         [CursorList.SList([], 0), CursorList.SList(b1, 0), CursorList.SList(b2, 0), CursorList.SList(b3, 0)],
         ExampleKey, ExampleEq)
  }

  /** An example dictionary is well formed when each bucket holds records
      of its own key class and the size counts them. */
  lemma ExampleValid(size: nat, b1: seq<(nat, nat)>, b2: seq<(nat, nat)>, b3: seq<(nat, nat)>)
    requires forall i :: 0 <= i < |b1| ==> b1[i].0 % 4 == 1
    requires forall i :: 0 <= i < |b2| ==> b2[i].0 % 4 == 2
    requires forall i :: 0 <= i < |b3| ==> b3[i].0 % 4 == 3
    requires size == |b1| + |b2| + |b3|
    ensures Valid(Example(size, b1, b2, b3))
  {
    var bs := Example(size, b1, b2, b3).buckets;
    var s0 := [CursorList.SList([], 0)];
    var s1 := s0 + [CursorList.SList(b1, 0)];
    var s2 := s1 + [CursorList.SList(b2, 0)];
    assert bs == s2 + [CursorList.SList(b3, 0)];
    assert s2[..2] == s1 && s1[..1] == s0 && s0[..0] == [];
    assert Total(s0) == 0;
    assert Total(s1) == |b1|;
    assert Total(s2) == |b1| + |b2|;
    assert Total(bs) == |b1| + |b2| + |b3| by {
      assert bs[..3] == s2;
    }
  }

  lemma ExampleStart()
    ensures NewDict(4, ExampleKey, ExampleEq) == Example(0, [], [], [])
  {
    assert NewDict(4, ExampleKey, ExampleEq).buckets == Example(0, [], [], []).buckets;
  }

  /** Writing a record whose bucket holds no equal record appends it. */
  lemma ExampleAppend(d: Dict<(nat, nat)>, x: (nat, nat), b: nat, l: seq<(nat, nat)>)
    requires Valid(d) && d.allocation == 4 && b == BucketOf(d, x) && d.buckets[b] == CursorList.SList(l, 0)
    requires forall i :: 0 <= i < |l| ==> l[i].0 != x.0
    requires d.eq == ExampleEq
    ensures Kept(d, x) == [x]
    ensures Write(d, x).0 == d.(size := d.size + 1, buckets := d.buckets[b := CursorList.SList(l + [x], 0)])
  {
    assert Query(d, x).value.None?;
  }

  /** Replacing bucket 1 or bucket 2 of an example dictionary. */
  lemma ExampleSetBucket(size: nat, b1: seq<(nat, nat)>, b2: seq<(nat, nat)>, b3: seq<(nat, nat)>, l: seq<(nat, nat)>)
    ensures Example(size, b1, b2, b3).buckets[1 := CursorList.SList(l, 0)] == Example(size, l, b2, b3).buckets
    ensures Example(size, b1, b2, b3).buckets[2 := CursorList.SList(l, 0)] == Example(size, b1, l, b3).buckets
    ensures Example(size, b1, b2, b3).buckets[3 := CursorList.SList(l, 0)] == Example(size, b1, b2, l).buckets
  {
    var e := Example(size, b1, b2, b3).buckets;
    assert e[1 := CursorList.SList(l, 0)][1] == CursorList.SList(l, 0);
    assert e[2 := CursorList.SList(l, 0)][2] == CursorList.SList(l, 0);
    assert e[3 := CursorList.SList(l, 0)][3] == CursorList.SList(l, 0);
  }

  lemma ExampleStep1(d: Dict<(nat, nat)>, x: (nat, nat))
    requires d == Example(0, [], [], []) && x == (1, 0)
    ensures Valid(d) && Kept(d, x) == [x]
    ensures Write(d, x).0 == Example(1, [x], [], [])
  {
    ExampleValid(0, [], [], []);
    ExampleAppend(d, x, 1, []);
    ExampleSetBucket(0, [], [], [], [x]);
  }

  lemma ExampleStep2(d: Dict<(nat, nat)>, x: (nat, nat))
    requires d == Example(1, [(1, 0)], [], []) && x == (2, 1)
    ensures Valid(d) && Kept(d, x) == [x]
    ensures Write(d, x).0 == Example(2, [(1, 0)], [x], [])
  {
    ExampleValid(1, [(1, 0)], [], []);
    ExampleAppend(d, x, 2, []);
    ExampleSetBucket(1, [(1, 0)], [], [], [x]);
  }

  lemma ExampleStep3(d: Dict<(nat, nat)>, x: (nat, nat))
    requires d == Example(2, [(1, 0)], [(2, 1)], []) && x == (1, 2)
    ensures Valid(d) && Kept(d, x) == []
    ensures Query(d, x).value == Some((1, 0))
    ensures Write(d, x).0 == d
  {
    ExampleValid(2, [(1, 0)], [(2, 1)], []);
    assert BucketOf(d, x) == 1 && Chain(d, x) == [(1, 0)];
  }

  lemma ExampleStep4(d: Dict<(nat, nat)>, x: (nat, nat))
    requires d == Example(2, [(1, 0)], [(2, 1)], []) && x == (3, 3)
    ensures Valid(d) && Kept(d, x) == [x]
    ensures Write(d, x).0 == Example(3, [(1, 0)], [(2, 1)], [x])
  {
    ExampleValid(2, [(1, 0)], [(2, 1)], []);
    ExampleAppend(d, x, 3, []);
    ExampleSetBucket(2, [(1, 0)], [(2, 1)], [], [x]);
  }

  lemma ConsTwo<T>(a: T, b: T)
    ensures [a] + [b] == [a, b]
  {
  }

  lemma ConsThree<T>(a: T, b: T, c: T)
    ensures [a] + [b, c] == [a, b, c]
  {
  }

  lemma ConsFour<T>(a: T, b: T, c: T, e: T)
    ensures [a] + [b, c, e] == [a, b, c, e]
  {
  }

  /** WriteAll, one record in. */
  lemma WriteAllCons<T>(d: Dict<T>, x: T, rest: seq<T>)
    requires Valid(d)
    ensures WriteAll(d, [x] + rest) == WriteAll(Write(d, x).0, rest)
  {
    assert ([x] + rest)[0] == x && ([x] + rest)[1..] == rest;
  }


  lemma ExampleRunFrom3(d: Dict<(nat, nat)>, x3: (nat, nat))
    requires d == Example(2, [(1, 0)], [(2, 1)], []) && x3 == (3, 3)
    ensures Valid(d)
    ensures WriteAll(d, [x3]) == Example(3, [(1, 0)], [(2, 1)], [x3])
  {
    ExampleStep4(d, x3);
    WriteAllCons(d, x3, []);
    assert [x3] + [] == [x3];
  }

  lemma ExampleRunFrom2(d: Dict<(nat, nat)>, x2: (nat, nat), x3: (nat, nat))
    requires d == Example(2, [(1, 0)], [(2, 1)], []) && x2 == (1, 2) && x3 == (3, 3)
    ensures Valid(d)
    ensures WriteAll(d, [x2, x3]) == Example(3, [(1, 0)], [(2, 1)], [x3])
  {
    ExampleStep3(d, x2);
    ExampleRunFrom3(d, x3);
    WriteAllCons(d, x2, [x3]);
    ConsTwo(x2, x3);
  }

  lemma ExampleRun(d: Dict<(nat, nat)>, x1: (nat, nat), x2: (nat, nat), x3: (nat, nat))
    requires d == Example(1, [(1, 0)], [], []) && x1 == (2, 1) && x2 == (1, 2) && x3 == (3, 3)
    ensures Valid(d)
    ensures WriteAll(d, [x1, x2, x3]) == Example(3, [(1, 0)], [x1], [x3])
  {
    ExampleStep2(d, x1);
    ExampleRunFrom2(Write(d, x1).0, x2, x3);
    WriteAllCons(d, x1, [x2, x3]);
    ConsThree(x1, x2, x3);
  }

  /** Writing keys 1, 2, 1, 3 into the empty four-bucket dictionary keyed
      and compared by key stores three records: the second key 1 is
      refused. */
  lemma KeysExample(d0: Dict<(nat, nat)>, x0: (nat, nat), x1: (nat, nat), x2: (nat, nat), x3: (nat, nat))
    requires d0 == Example(0, [], [], [])
    requires x0 == (1, 0) && x1 == (2, 1) && x2 == (1, 2) && x3 == (3, 3)
    ensures Valid(d0)
    ensures WriteAll(d0, [x0, x1, x2, x3]) == Example(3, [x0], [x1], [x3])
    ensures WriteAll(d0, [x0, x1, x2, x3]).size == 3
  {
    ExampleStep1(d0, x0);
    ExampleRun(Write(d0, x0).0, x1, x2, x3);
    WriteAllCons(d0, x0, [x1, x2, x3]);
    ConsFour(x0, x1, x2, x3);
  }

  /** In the dictionary those writes leave, a query for key 1 finds the
      record first written with it. */
  lemma ExampleFinalQuery(d: Dict<(nat, nat)>, x: (nat, nat))
    requires d == Example(3, [(1, 0)], [(2, 1)], [(3, 3)]) && x == (1, 9)
    ensures Valid(d) && d.size == 3
    ensures Query(d, x).value == Some((1, 0))
  {
    ExampleValid(3, [(1, 0)], [(2, 1)], [(3, 3)]);
    assert Chain(d, x) == [(1, 0)];
  }
}

=== FILE: doubly_linked.dfy ===
/** The doubly-linked cursor list (DLinkedList) of dsbasic.c, seen abstractly:
    the payloads from head to tail and an optional cursor index. A null cursor
    (`None`) does not record on which side of the list it fell off. */
module DoublyLinked {
  import opened Wrappers

  datatype DList<T> = DList(items: seq<T>, cursor: Option<nat>)

  /** A non-null cursor names a node. */
  predicate Valid<T>(l: DList<T>) {
    l.cursor.Some? ==> l.cursor.value < |l.items|
  }

  /** iscursorvalidDL */
  predicate CursorValid<T>(l: DList<T>) {
    Valid(l) && l.cursor.Some?
  }

  /** newDL, with the cursor null (the source leaves it uninitialised). */
  function NewDL<T>(): (r: DList<T>)
    ensures Valid(r) && |r.items| == 0 && r.cursor == None
  {
    DList([], None)
  }

  /** insertDL: the new node goes immediately before the cursor node; the
      cursor moves to it unless `before` is set, in which case it stays on
      its node. Head and tail follow. */
  function InsertDL<T>(l: DList<T>, d: T, before: bool): (r: DList<T>)
    requires CursorValid(l)
    ensures CursorValid(r)
    ensures |r.items| == |l.items| + 1
    ensures r.items[l.cursor.value] == d
    ensures forall i :: 0 <= i < l.cursor.value ==> r.items[i] == l.items[i]
    ensures forall i :: l.cursor.value <= i < |l.items| ==> r.items[i + 1] == l.items[i]
    ensures before ==> r.items[r.cursor.value] == l.items[l.cursor.value] && r.cursor.value == l.cursor.value + 1
    ensures !before ==> r.cursor == l.cursor
  {
    var c := l.cursor.value;
    DList(l.items[..c] + [d] + l.items[c..], if before then Some(c + 1) else Some(c))
  }

  /** delete_and_nextDL: remove the cursor node; the cursor moves to its
      successor, or becomes null when the tail was removed. */
  function DeleteAndNextDL<T>(l: DList<T>): (r: DList<T>)
    requires CursorValid(l)
    ensures Valid(r)
    ensures |r.items| == |l.items| - 1
    ensures forall i :: 0 <= i < l.cursor.value ==> r.items[i] == l.items[i]
    ensures forall i :: l.cursor.value <= i < |r.items| ==> r.items[i] == l.items[i + 1]
    ensures r.cursor.Some? <==> l.cursor.value + 1 < |l.items|
    ensures r.cursor.Some? ==> r.cursor.value == l.cursor.value
    ensures r.cursor.Some? ==> r.items[r.cursor.value] == l.items[l.cursor.value + 1]
  {
    var c := l.cursor.value;
    DList(l.items[..c] + l.items[c + 1..], if c + 1 < |l.items| then Some(c) else None)
  }

  /** delete_and_prevDL: remove the cursor node; the cursor moves to its
      predecessor, or becomes null when the head was removed. */
  function DeleteAndPrevDL<T>(l: DList<T>): (r: DList<T>)
    requires CursorValid(l)
    ensures Valid(r)
    ensures |r.items| == |l.items| - 1
    ensures forall i :: 0 <= i < l.cursor.value ==> r.items[i] == l.items[i]
    ensures forall i :: l.cursor.value <= i < |r.items| ==> r.items[i] == l.items[i + 1]
    ensures r.cursor.Some? <==> l.cursor.value > 0
    ensures r.cursor.Some? ==> r.cursor.value + 1 == l.cursor.value
    ensures r.cursor.Some? ==> r.items[r.cursor.value] == l.items[l.cursor.value - 1]
  {
    var c := l.cursor.value;
    DList(l.items[..c] + l.items[c + 1..], if c > 0 then Some(c - 1) else None)
  }

  /** extendDL: add a node at the tail (`toTail`) or at the head. The cursor
      stays on the node it named; a null cursor stays null, even on a list
      that was empty. */
  function ExtendDL<T>(l: DList<T>, d: T, toTail: bool): (r: DList<T>)
    requires Valid(l)
    ensures Valid(r)
    ensures |r.items| == |l.items| + 1
    ensures toTail ==> r.items[..|l.items|] == l.items && r.items[|l.items|] == d
    ensures !toTail ==> r.items[0] == d && r.items[1..] == l.items
    ensures r.cursor.Some? <==> l.cursor.Some?
    ensures toTail && l.cursor.Some? ==> r.cursor.value == l.cursor.value
    ensures !toTail && l.cursor.Some? ==> r.cursor.value == l.cursor.value + 1
    ensures r.cursor.Some? ==> r.items[r.cursor.value] == l.items[l.cursor.value]
  {
    if toTail then DList(l.items + [d], l.cursor)
    else DList([d] + l.items, if l.cursor.Some? then Some(l.cursor.value + 1) else None)
  }

  /** resetDL: the cursor goes to the head (null on an empty list). */
  function ResetDL<T>(l: DList<T>): (r: DList<T>)
    ensures Valid(r) && r.items == l.items
    ensures r.cursor.Some? <==> |l.items| > 0
    ensures r.cursor.Some? ==> r.cursor.value == 0
  {
    DList(l.items, if |l.items| > 0 then Some(0) else None)
  }

  /** nextDL: requires a non-null cursor; moves it to the successor. */
  function NextDL<T>(l: DList<T>): (r: DList<T>)
    requires CursorValid(l)
    ensures Valid(r) && r.items == l.items
    ensures r.cursor.Some? <==> l.cursor.value + 1 < |l.items|
    ensures r.cursor.Some? ==> r.cursor.value == l.cursor.value + 1
  {
    var c := l.cursor.value;
    DList(l.items, if c + 1 < |l.items| then Some(c + 1) else None)
  }

  /** prevDL: requires a non-null cursor; moves it to the predecessor. */
  function PrevDL<T>(l: DList<T>): (r: DList<T>)
    requires CursorValid(l)
    ensures Valid(r) && r.items == l.items
    ensures r.cursor.Some? <==> l.cursor.value > 0
    ensures r.cursor.Some? ==> r.cursor.value + 1 == l.cursor.value
  {
    var c := l.cursor.value;
    DList(l.items, if c > 0 then Some(c - 1) else None)
  }

  /** getDL: the payload of the cursor node. */
  function GetDL<T>(l: DList<T>): (r: T)
    requires CursorValid(l)
    ensures r in l.items
  {
    l.items[l.cursor.value]
  }

  /** nextDL and prevDL undo each other away from the ends. */
  lemma NextPrevInverse<T>(l: DList<T>)
    requires CursorValid(l)
    ensures l.cursor.value + 1 < |l.items| ==> PrevDL(NextDL(l)) == l
    ensures l.cursor.value > 0 ==> NextDL(PrevDL(l)) == l
  {
  }

  /** Deleting the node a non-`before` insertion created restores the list. */
  lemma InsertThenDeleteDL<T>(l: DList<T>, d: T)
    requires CursorValid(l)
    ensures DeleteAndNextDL(InsertDL(l, d, false)) == l
  {
    var r := DeleteAndNextDL(InsertDL(l, d, false));
    assert r.items == l.items;
  }

  /** After a `before` insertion, stepping back onto the new node and
      deleting it restores the list. */
  lemma InsertBeforeThenDeleteDL<T>(l: DList<T>, d: T)
    requires CursorValid(l)
    ensures DeleteAndNextDL(PrevDL(InsertDL(l, d, true))) == l
  {
    var r := DeleteAndNextDL(PrevDL(InsertDL(l, d, true)));
    assert r.items == l.items;
  }

  /** delete_and_prevDL and delete_and_nextDL remove the same node; away
      from the ends, stepping back after delete_and_nextDL is
      delete_and_prevDL. */
  lemma DeletePrevNextAgree<T>(l: DList<T>)
    requires CursorValid(l)
    ensures DeleteAndPrevDL(l).items == DeleteAndNextDL(l).items
    ensures 0 < l.cursor.value && l.cursor.value + 1 < |l.items| ==>
              CursorValid(DeleteAndNextDL(l)) && DeleteAndPrevDL(l) == PrevDL(DeleteAndNextDL(l))
  {
  }

  /** Extending at the head and deleting the new head from a reset cursor
      gives the list back with its cursor reset. */
  lemma ExtendHeadThenDeleteDL<T>(l: DList<T>, d: T)
    requires Valid(l)
    ensures CursorValid(ResetDL(ExtendDL(l, d, false)))
    ensures DeleteAndNextDL(ResetDL(ExtendDL(l, d, false))) == ResetDL(l)
  {
    assert DeleteAndNextDL(ResetDL(ExtendDL(l, d, false))).items == l.items;
  }

  /** Extending at the tail, walking from the head to the new tail and
      deleting it backwards gives the payloads back, with the cursor on the
      old tail. */
  lemma {:induction false} ExtendTailThenDeleteDL<T>(l: DList<T>, d: T)
    requires Valid(l)
    ensures CursorValid(Walk(ResetDL(ExtendDL(l, d, true)), |l.items|))
    ensures var r := DeleteAndPrevDL(Walk(ResetDL(ExtendDL(l, d, true)), |l.items|));
            && r.items == l.items
            && r.cursor == (if |l.items| > 0 then Some(|l.items| - 1) else None)
  {
    WalkFrom(ResetDL(ExtendDL(l, d, true)), |l.items|);
    var w := Walk(ResetDL(ExtendDL(l, d, true)), |l.items|);
    assert w.items == l.items + [d];
    assert (l.items + [d])[..|l.items|] == l.items;
  }

  /** The cursor after resetDL and `k` calls of nextDL (stopping at null). */
  function Walk<T>(l: DList<T>, k: nat): (r: DList<T>)
    requires Valid(l)
    ensures Valid(r) && r.items == l.items
    decreases k
  {
    if k == 0 || l.cursor.None? then l else Walk(NextDL(l), k - 1)
  }

  /** A traversal by resetDL and nextDL reads the payloads in list order and
      runs off the end exactly after the last one. */
  lemma {:induction false} WalkReadsInOrder<T>(l: DList<T>, k: nat)
    ensures k < |l.items| ==> CursorValid(Walk(ResetDL(l), k)) && GetDL(Walk(ResetDL(l), k)) == l.items[k]
    ensures k >= |l.items| ==> Walk(ResetDL(l), k).cursor == None
  {
    WalkFrom(ResetDL(l), k);
  }

  lemma {:induction false} WalkFrom<T>(l: DList<T>, k: nat)
    requires Valid(l)
    ensures var r := Walk(l, k);
            && (l.cursor.Some? && l.cursor.value + k < |l.items| ==> r.cursor == Some(l.cursor.value + k))
            && (l.cursor.Some? && l.cursor.value + k >= |l.items| ==> r.cursor == None)
            && (l.cursor.None? ==> r.cursor == None)
    decreases k
  {
    if k > 0 && l.cursor.Some? {
      WalkFrom(NextDL(l), k - 1);
    }
  }
}

=== FILE: graph_ops.dfy ===
/** Graph operations of dag.c that build new graphs from old ones:
    clone_graph, offset_graph and product_graph. A null DAG pointer is
    `None`. */
module GraphOps {
  import opened Wrappers
  import opened Dag

  /** Two graphs with the same vertices, degrees and arc buffers. */
  predicate SameArcs(a: DAG, b: DAG) {
    && a.size == b.size
    && a.indegree == b.indegree && a.outdegree == b.outdegree
    && a.inArcs == b.inArcs && a.outArcs == b.outArcs
  }

  /** Every buffer holds at least as many entries as its recorded degree,
      so that clone_graph can read a degree's worth of entries from it. */
  predicate DegreesFit(d: DAG)
    requires WellSized(d)
  {
    && (forall v :: 0 <= v < d.size ==> d.indegree[v] <= |d.inArcs[v]|)
    && (forall v :: 0 <= v < d.size ==> d.outdegree[v] <= |d.outArcs[v]|)
  }

  /** The buffers clone_graph allocates: for each vertex, a copy of the
      first `degree` entries of its buffer, which is no buffer at all (null)
      when the degree is 0. A graph whose buffers already match its degrees
      is left as it is. */
  function Trim(d: DAG): (r: DAG)
    requires WellSized(d) && DegreesFit(d)
    ensures BuffersMatch(r) && r.size == d.size && r.derived == d.derived
    ensures r.indegree == d.indegree && r.outdegree == d.outdegree
    ensures forall v :: 0 <= v < d.size ==> r.inArcs[v] == d.inArcs[v][..d.indegree[v]]
    ensures forall v :: 0 <= v < d.size ==> r.outArcs[v] == d.outArcs[v][..d.outdegree[v]]
    ensures BuffersMatch(d) ==> r == d
  {
    var r := d.(inArcs := seq(d.size, v requires 0 <= v < d.size => d.inArcs[v][..d.indegree[v]]),
                outArcs := seq(d.size, v requires 0 <= v < d.size => d.outArcs[v][..d.outdegree[v]]));
    assert BuffersMatch(d) ==> r.inArcs == d.inArcs && r.outArcs == d.outArcs by {
      if BuffersMatch(d) {
        forall v | 0 <= v < d.size ensures r.inArcs[v] == d.inArcs[v] && r.outArcs[v] == d.outArcs[v] {
          assert d.inArcs[v][..d.indegree[v]] == d.inArcs[v];
          assert d.outArcs[v][..d.outdegree[v]] == d.outArcs[v];
        }
      }
    }
    r
  }

  /** clone_graph: a null graph clones to null. Otherwise size and degrees
      are copied, a vertex of degree 0 gets no buffer, any other vertex gets
      the first `degree` entries of its buffer, the derived arrays start out
      absent, and dag_precompute_data fills them, aborting when the copy has
      no source or no sink. */
  function CloneGraph(src: Option<DAG>): (r: Result<Option<DAG>, DagError>)
    requires src.Some? ==> WellSized(src.value) && DegreesFit(src.value)
    ensures src.None? ==> r == Success(None)
    ensures src.Some? ==>
              (r.Success? <==> HasZero(src.value.indegree) && HasZero(src.value.outdegree))
    ensures src.Some? && r.Failure? ==> r.error != AlreadyPrecomputed
    ensures src.Some? && r.Success? ==>
              && r.value.Some?
              && r.value.value.size == src.value.size
              && r.value.value.indegree == src.value.indegree
              && r.value.value.outdegree == src.value.outdegree
              && BuffersMatch(r.value.value)
              && r.value.value.derived.Some?
              && ListsZeros(r.value.value.derived.value.sources, src.value.indegree)
              && ListsZeros(r.value.value.derived.value.sinks, src.value.outdegree)
    ensures src.Some? && r.Success? ==>
              forall v :: 0 <= v < src.value.size ==>
                && r.value.value.inArcs[v] == src.value.inArcs[v][..src.value.indegree[v]]
                && r.value.value.outArcs[v] == src.value.outArcs[v][..src.value.outdegree[v]]
    ensures src.Some? && r.Success? ==>
              forall v :: 0 <= v < src.value.size ==>
                && (src.value.indegree[v] == 0 ==> r.value.value.inArcs[v] == [])
                && (src.value.outdegree[v] == 0 ==> r.value.value.outArcs[v] == [])
    ensures src.Some? && r.Success? && BuffersMatch(src.value) ==> SameArcs(r.value.value, src.value)
  {
    if src.None? then Success(None)
    else
      match Precompute(Trim(src.value).(derived := None))
      case Success(d) => Success(Some(d))
      case Failure(e) => Failure(e)
  }

  /** Cloning a graph whose derived arrays were computed, and whose buffers
      match its degrees, gives the graph back unchanged. */
  lemma CloneOfPrecomputed(d: DAG)
    requires BuffersMatch(d) && Precompute(d).Success?
    ensures CloneGraph(Some(Precompute(d).value)) == Success(Some(Precompute(d).value))
  {
    var p := Precompute(d).value;
    var c := CloneGraph(Some(p)).value.value;
    ListsZerosIsZeros(p.derived.value.sources, d.indegree);
    ListsZerosIsZeros(c.derived.value.sources, d.indegree);
    ListsZerosIsZeros(p.derived.value.sinks, d.outdegree);
    ListsZerosIsZeros(c.derived.value.sinks, d.outdegree);
  }

  /** Cloning a clone gives the clone again. */
  lemma CloneIdempotent(d: DAG)
    requires WellSized(d) && DegreesFit(d) && CloneGraph(Some(d)).Success?
    ensures CloneGraph(CloneGraph(Some(d)).value) == CloneGraph(Some(d))
  {
    CloneOfPrecomputed(Trim(d).(derived := None));
  }

  /** Every entry of `xs` raised by `k`. */
  function Shift(xs: seq<Vertex>, k: nat): (r: seq<Vertex>)
    ensures |r| == |xs|
    ensures forall j :: 0 <= j < |xs| ==> r[j] == xs[j] + k
  {
    seq(|xs|, j requires 0 <= j < |xs| => xs[j] + k)
  }

  /** `w` is in a shifted list exactly when `w - k` was in the list. */
  lemma ShiftMembers(xs: seq<Vertex>, k: nat, w: Vertex)
    ensures w in Shift(xs, k) <==> w >= k && w - k in xs
  {
    if w >= k && w - k in xs {
      var j :| 0 <= j < |xs| && xs[j] == w - k;
      assert Shift(xs, k)[j] == w;
    }
  }

  function ShiftAll(xss: seq<seq<Vertex>>, k: nat): (r: seq<seq<Vertex>>)
    ensures |r| == |xss|
    ensures forall v :: 0 <= v < |xss| ==> r[v] == Shift(xss[v], k)
  {
    seq(|xss|, v requires 0 <= v < |xss| => Shift(xss[v], k))
  }

  /** offset_graph: renumber the endpoint of every listed arc by `offset`;
      a null graph is ignored. Degrees, size and the derived arrays are not
      touched. */
  function OffsetGraph(p: Option<DAG>, offset: nat): (r: Option<DAG>)
    ensures r.Some? <==> p.Some?
    ensures p.Some? ==>
              && r.value.size == p.value.size
              && r.value.indegree == p.value.indegree
              && r.value.outdegree == p.value.outdegree
              && r.value.derived == p.value.derived
              && |r.value.inArcs| == |p.value.inArcs|
              && |r.value.outArcs| == |p.value.outArcs|
  {
    if p.None? then None
    else
      var d := p.value;
      Some(d.(inArcs := ShiftAll(d.inArcs, offset), outArcs := ShiftAll(d.outArcs, offset)))
  }

  /** After offset_graph, `w` is a neighbour of `v` exactly when `w - offset`
      was one before. */
  lemma OffsetMembers(d: DAG, offset: nat, v: Vertex, w: Vertex)
    ensures v < |d.outArcs| ==>
              (w in OffsetGraph(Some(d), offset).value.outArcs[v] <==> w >= offset && w - offset in d.outArcs[v])
    ensures v < |d.inArcs| ==>
              (w in OffsetGraph(Some(d), offset).value.inArcs[v] <==> w >= offset && w - offset in d.inArcs[v])
  {
    if v < |d.outArcs| {
      ShiftMembers(d.outArcs[v], offset, w);
    }
    if v < |d.inArcs| {
      ShiftMembers(d.inArcs[v], offset, w);
    }
  }

  /** An offset of zero changes nothing. */
  lemma OffsetZero(p: Option<DAG>)
    ensures OffsetGraph(p, 0) == p
  {
    if p.Some? {
      var d := p.value;
      var r := OffsetGraph(p, 0).value;
      forall v | 0 <= v < |d.inArcs| ensures r.inArcs[v] == d.inArcs[v] {
        assert Shift(d.inArcs[v], 0) == d.inArcs[v];
      }
      forall v | 0 <= v < |d.outArcs| ensures r.outArcs[v] == d.outArcs[v] {
        assert Shift(d.outArcs[v], 0) == d.outArcs[v];
      }
      assert r.inArcs == d.inArcs && r.outArcs == d.outArcs;
    }
  }

  /** Two offsets in a row are one offset by their sum. */
  lemma OffsetCompose(p: Option<DAG>, a: nat, b: nat)
    ensures OffsetGraph(OffsetGraph(p, a), b) == OffsetGraph(p, a + b)
  {
    if p.Some? {
      var d := p.value;
      var r := OffsetGraph(OffsetGraph(p, a), b).value;
      var s := OffsetGraph(p, a + b).value;
      forall v | 0 <= v < |d.inArcs| ensures r.inArcs[v] == s.inArcs[v] {
        assert Shift(Shift(d.inArcs[v], a), b) == Shift(d.inArcs[v], a + b);
      }
      forall v | 0 <= v < |d.outArcs| ensures r.outArcs[v] == s.outArcs[v] {
        assert Shift(Shift(d.outArcs[v], a), b) == Shift(d.outArcs[v], a + b);
      }
      assert r.inArcs == s.inArcs && r.outArcs == s.outArcs;
    }
  }

  // Block arithmetic of the product: vertex `a` of copy `i` of the inner
  // graph is `Pos(A, i, a)`, A being the inner size.

  function Pos(A: nat, i: nat, a: nat): nat {
    i * A + a
  }

  lemma {:induction false} MulMono(x: nat, y: nat, A: nat)
    requires x <= y
    ensures x * A <= y * A
    decreases y - x
  {
    if x < y {
      MulMono(x, y - 1, A);
      assert y * A == (y - 1) * A + A;
    }
  }

  /** A vertex of copy `i` lies before copy `i + 1` and inside the product. */
  lemma PosBound(A: nat, B: nat, i: nat, a: nat)
    requires i < B && a < A
    ensures Pos(A, i, 0) <= Pos(A, i, a) < Pos(A, i + 1, 0) <= A * B
  {
    MulMono(i + 1, B, A);
    assert (i + 1) * A == i * A + A;
    assert B * A == A * B;
  }

  /** Copy number and position inside the copy are determined by the vertex. */
  lemma PosUnique(A: nat, i: nat, a: nat, j: nat, b: nat)
    requires a < A && b < A && Pos(A, i, a) == Pos(A, j, b)
    ensures i == j && a == b
  {
    if i < j {
      PosBound(A, j + 1, i, a);
      MulMono(i + 1, j, A);
    } else if j < i {
      PosBound(A, i + 1, j, b);
      MulMono(j + 1, i, A);
    }
  }

  /** Every vertex of the product belongs to some copy. */
  lemma PosOf(A: nat, B: nat, v: nat)
    requires v < A * B
    ensures A > 0 && v / A < B && v % A < A && Pos(A, v / A, v % A) == v
  {
    if v / A >= B {
      MulMono(B, v / A, A);
    }
  }

  /** The buffers of B copies of `arcs` laid end to end, copy `i` renumbered
      by `i * |arcs|`: the memcpy of each offset clone into the product. */
  function Glue(arcs: seq<seq<Vertex>>, B: nat): (r: seq<seq<Vertex>>)
    ensures |r| == |arcs| * B
  {
    if B == 0 then []
    else
      var A := |arcs|;
      assert A * (B - 1) + A == A * B;
      Glue(arcs, B - 1) + ShiftAll(arcs, (B - 1) * A)
  }

  /** Vertex `a` of copy `i` carries the buffer of inner vertex `a`, every
      entry raised by `i * A`. */
  lemma {:induction false} GlueAt(arcs: seq<seq<Vertex>>, B: nat, i: nat, a: nat)
    requires i < B && a < |arcs|
    ensures Pos(|arcs|, i, a) < |Glue(arcs, B)|
    ensures Glue(arcs, B)[Pos(|arcs|, i, a)] == Shift(arcs[a], i * |arcs|)
  {
    var A := |arcs|;
    var init := Glue(arcs, B - 1);
    assert A * (B - 1) + A == A * B;
    PosBound(A, B, i, a);
    if i < B - 1 {
      GlueAt(arcs, B - 1, i, a);
      assert Glue(arcs, B)[Pos(A, i, a)] == init[Pos(A, i, a)];
    } else {
      assert Pos(A, i, a) - |init| == a;
    }
  }

  /** The arcs one outer arc `i -> t` adds: from the last vertex `x` of copy
      `i` to every vertex of copy `t`, in increasing order. */
  function Fan(x: Vertex, A: nat, t: Vertex): (r: seq<(Vertex, Vertex)>)
    ensures |r| == A
    ensures forall k :: 0 <= k < A ==> r[k] == (x, Pos(A, t, k))
  {
    seq(A, k requires 0 <= k < A => (x, Pos(A, t, k)))
  }

  /** The arcs from `x` for each outer neighbour in `ts`, in list order. */
  function FanAll(x: Vertex, A: nat, ts: seq<Vertex>): seq<(Vertex, Vertex)> {
    if |ts| == 0 then [] else FanAll(x, A, ts[..|ts| - 1]) + Fan(x, A, ts[|ts| - 1])
  }

  /** The arcs the second loop of product_graph adds for outer vertices
      0..B-1, in the order it adds them. */
  function Bridges(A: nat, outs: seq<seq<Vertex>>, B: nat): seq<(Vertex, Vertex)>
    requires B <= |outs|
    requires B == 0 || A > 0
  {
    if B == 0 then [] else Bridges(A, outs, B - 1) + FanAll(Pos(A, B - 1, A - 1), A, outs[B - 1])
  }

  lemma {:induction false} FanAllMembers(x: Vertex, A: nat, ts: seq<Vertex>, e: (Vertex, Vertex))
    ensures e in FanAll(x, A, ts) <==>
              e.0 == x && exists t :: t in ts && Pos(A, t, 0) <= e.1 < Pos(A, t, 0) + A
    decreases |ts|
  {
    if |ts| > 0 {
      var n := |ts| - 1;
      FanAllMembers(x, A, ts[..n], e);
      var fan := Fan(x, A, ts[n]);
      if e.0 == x && Pos(A, ts[n], 0) <= e.1 < Pos(A, ts[n], 0) + A {
        assert fan[e.1 - Pos(A, ts[n], 0)] == e;
      }
      assert e in fan <==> e.0 == x && Pos(A, ts[n], 0) <= e.1 < Pos(A, ts[n], 0) + A;
      assert forall t :: t in ts <==> t in ts[..n] || t == ts[n] by {
        assert ts == ts[..n] + [ts[n]];
      }
    }
  }

  /** An arc is a bridge exactly when it leaves the last vertex of copy `i`
      for a vertex of copy `t`, where `i -> t` is an outer arc. */
  lemma {:induction false} BridgesMembers(A: nat, outs: seq<seq<Vertex>>, B: nat, e: (Vertex, Vertex))
    requires B <= |outs| && A > 0
    ensures e in Bridges(A, outs, B) <==>
              exists i, t :: 0 <= i < B && t in outs[i] && e.0 == Pos(A, i, A - 1) &&
                             Pos(A, t, 0) <= e.1 < Pos(A, t, 0) + A
  {
    if B > 0 {
      BridgesMembers(A, outs, B - 1, e);
      FanAllMembers(Pos(A, B - 1, A - 1), A, outs[B - 1], e);
    }
  }

  /** add_arc: append `y` to the out-list of `x` and `x` to the in-list of
      `y`, counting both degrees. */
  function AddArc(g: DAG, x: Vertex, y: Vertex): (r: DAG)
    requires BuffersMatch(g) && x < g.size && y < g.size
    ensures BuffersMatch(r) && r.size == g.size && r.derived == g.derived
    ensures forall v, w :: 0 <= v < g.size ==>
              (w in r.outArcs[v] <==> w in g.outArcs[v] || (v == x && w == y))
    ensures forall v, w :: 0 <= v < g.size ==>
              (w in r.inArcs[v] <==> w in g.inArcs[v] || (v == y && w == x))
    ensures forall v :: 0 <= v < g.size ==>
              |r.outArcs[v]| == |g.outArcs[v]| + (if v == x then 1 else 0)
  {
    g.(outArcs := g.outArcs[x := g.outArcs[x] + [y]],
       outdegree := g.outdegree[x := g.outdegree[x] + 1],
       inArcs := g.inArcs[y := g.inArcs[y] + [x]],
       indegree := g.indegree[y := g.indegree[y] + 1])
  }

  /** Adds the arcs of `es` one after another. */
  function AddArcs(g: DAG, es: seq<(Vertex, Vertex)>): (r: DAG)
    requires BuffersMatch(g)
    requires forall k :: 0 <= k < |es| ==> es[k].0 < g.size && es[k].1 < g.size
    ensures BuffersMatch(r) && r.size == g.size && r.derived == g.derived
    ensures forall v, w :: 0 <= v < g.size ==>
              (w in r.outArcs[v] <==> w in g.outArcs[v] || (v, w) in es)
    ensures forall v, w :: 0 <= v < g.size ==>
              (w in r.inArcs[v] <==> w in g.inArcs[v] || (w, v) in es)
    decreases |es|
  {
    if |es| == 0 then g
    else
      var n := |es| - 1;
      assert es == es[..n] + [es[n]];
      AddArc(AddArcs(g, es[..n]), es[n].0, es[n].1)
  }

  /** The number of arcs in `es` that leave `v`, counted with repetition. */
  function OutCount(es: seq<(Vertex, Vertex)>, v: Vertex): nat {
    if |es| == 0 then 0
    else OutCount(es[..|es| - 1], v) + (if es[|es| - 1].0 == v then 1 else 0)
  }

  lemma {:induction false} OutCountConcat(a: seq<(Vertex, Vertex)>, b: seq<(Vertex, Vertex)>, v: Vertex)
    ensures OutCount(a + b, v) == OutCount(a, v) + OutCount(b, v)
    decreases |b|
  {
    if |b| > 0 {
      assert (a + b)[..|a + b| - 1] == a + b[..|b| - 1];
      OutCountConcat(a, b[..|b| - 1], v);
    } else {
      assert a + b == a;
    }
  }

  /** Adding arcs one by one lengthens the out-list of `v` by the number of
      them that leave `v`: a repeated arc is listed again. */
  lemma {:induction false} AddArcsOutLength(g: DAG, es: seq<(Vertex, Vertex)>, v: Vertex)
    requires BuffersMatch(g) && v < g.size
    requires forall k :: 0 <= k < |es| ==> es[k].0 < g.size && es[k].1 < g.size
    ensures |AddArcs(g, es).outArcs[v]| == |g.outArcs[v]| + OutCount(es, v)
    decreases |es|
  {
    if |es| > 0 {
      AddArcsOutLength(g, es[..|es| - 1], v);
    }
  }

  /** The arcs `Fan` adds for a list of outer neighbours all leave `x`,
      `A` of them per neighbour. */
  lemma {:induction false} FanAllOutCount(x: Vertex, A: nat, ts: seq<Vertex>, v: Vertex)
    ensures OutCount(FanAll(x, A, ts), v) == (if v == x then A * |ts| else 0)
    decreases |ts|
  {
    if |ts| > 0 {
      var n := |ts| - 1;
      var init, last := FanAll(x, A, ts[..n]), Fan(x, A, ts[n]);
      assert FanAll(x, A, ts) == init + last;
      FanAllOutCount(x, A, ts[..n], v);
      OutCountConcat(init, last, v);
      FanOutCount(x, A, ts[n], v, A);
      assert Fan(x, A, ts[n])[..A] == last;
      MulSucc(A, n);
      assert |ts[..n]| == n && |ts| == n + 1;
    }
  }

  lemma MulSucc(A: nat, n: nat)
    ensures A * (n + 1) == A * n + A
  {
  }

  /** The first `m` arcs of `Fan(x, A, t)` all leave `x`. */
  lemma {:induction false} FanOutCount(x: Vertex, A: nat, t: Vertex, v: Vertex, m: nat)
    requires m <= A
    ensures OutCount(Fan(x, A, t)[..m], v) == (if v == x then m else 0)
    decreases m
  {
    if m > 0 {
      var f := Fan(x, A, t);
      assert f[..m][..m - 1] == f[..m - 1];
      FanOutCount(x, A, t, v, m - 1);
    }
    assert m == A ==> Fan(x, A, t)[..m] == Fan(x, A, t);
  }

  /** The bridges leaving vertex `a` of copy `i`: A for each outer arc
      leaving `i` when `a` is the last inner vertex, and none otherwise. */
  lemma {:induction false} BridgesOutCount(A: nat, outs: seq<seq<Vertex>>, B: nat, i: nat, a: nat)
    requires B <= |outs| && a < A
    ensures OutCount(Bridges(A, outs, B), Pos(A, i, a)) ==
            (if a == A - 1 && i < B then A * |outs[i]| else 0)
    decreases B
  {
    if B > 0 {
      var x := Pos(A, B - 1, A - 1);
      BridgesOutCount(A, outs, B - 1, i, a);
      OutCountConcat(Bridges(A, outs, B - 1), FanAll(x, A, outs[B - 1]), Pos(A, i, a));
      FanAllOutCount(x, A, outs[B - 1], Pos(A, i, a));
      if Pos(A, i, a) == x {
        PosUnique(A, i, a, B - 1, A - 1);
      }
    }
  }

  /** The outer graph's arcs stay inside it, as product_graph needs to
      address the target copies. */
  predicate OutArcsInRange(d: DAG)
    requires WellSized(d)
  {
    forall v, k :: 0 <= v < d.size && 0 <= k < |d.outArcs[v]| ==> d.outArcs[v][k] < d.size
  }

  /** The B renumbered copies of the inner graph, before any bridge: the
      list graph product_graph allocates with calloc has no degree arrays,
      so the degrees recorded here are the list lengths. */
  function Copies(inner: DAG, B: nat): (r: DAG)
    requires WellSized(inner)
    ensures BuffersMatch(r) && r.size == inner.size * B && r.derived == None
  {
    var ins := Glue(inner.inArcs, B);
    var outs := Glue(inner.outArcs, B);
    DAG(inner.size * B,
        seq(|ins|, v requires 0 <= v < |ins| => |ins[v]|),
        seq(|outs|, v requires 0 <= v < |outs| => |outs[v]|),
        ins, outs, None)
  }

  lemma BridgesInRange(A: nat, outer: DAG)
    requires WellSized(outer) && OutArcsInRange(outer) && A > 0
    ensures forall k :: 0 <= k < |Bridges(A, outer.outArcs, outer.size)| ==>
              Bridges(A, outer.outArcs, outer.size)[k].0 < A * outer.size &&
              Bridges(A, outer.outArcs, outer.size)[k].1 < A * outer.size
  {
    var B := outer.size;
    var es := Bridges(A, outer.outArcs, B);
    forall k | 0 <= k < |es|
      ensures es[k].0 < A * B && es[k].1 < A * B
    {
      BridgesMembers(A, outer.outArcs, B, es[k]);
      var i, t :| 0 <= i < B && t in outer.outArcs[i] && es[k].0 == Pos(A, i, A - 1) &&
                  Pos(A, t, 0) <= es[k].1 < Pos(A, t, 0) + A;
      PosBound(A, B, i, A - 1);
      PosBound(A, B, t, A - 1);
    }
  }

  /** The graph product_graph builds from two non-null graphs: copy `i` of
      the inner graph occupies vertices i*A .. i*A+A-1, and for every outer
      arc `i -> t` the last vertex of copy `i` gets an arc to every vertex of
      copy `t`. */
  function Product(inner: DAG, outer: DAG): (p: DAG)
    requires WellSized(inner) && WellSized(outer) && OutArcsInRange(outer)
    requires outer.size == 0 || inner.size > 0
    ensures p.size == inner.size * outer.size && BuffersMatch(p) && p.derived == None
  {
    var A, B := inner.size, outer.size;
    var copies := Copies(inner, B);
    var bridges := Bridges(A, outer.outArcs, B);
    assert forall k :: 0 <= k < |bridges| ==> bridges[k].0 < copies.size && bridges[k].1 < copies.size by {
      if B > 0 {
        BridgesInRange(A, outer);
      }
    }
    AddArcs(copies, bridges)
  }

  /** product_graph: a null factor gives null. Otherwise each copy is an
      offset clone of the inner graph, and each clone runs
      dag_precompute_data, so an inner graph without a source or a sink
      aborts the whole product once there is at least one copy. A clone
      keeps a degree's worth of each buffer, so the copies are those of
      `Trim(inner)`, which is the inner graph itself when its buffers match
      its degrees. */
  function ProductGraph(inner: Option<DAG>, outer: Option<DAG>): (r: Result<Option<DAG>, DagError>)
    requires inner.Some? ==> WellSized(inner.value)
    requires outer.Some? ==> WellSized(outer.value) && OutArcsInRange(outer.value)
    requires inner.Some? && outer.Some? && outer.value.size > 0 ==> DegreesFit(inner.value)
    ensures inner.None? || outer.None? ==> r == Success(None)
    ensures inner.Some? && outer.Some? ==>
              (r.Failure? <==> outer.value.size > 0 && CloneGraph(inner).Failure?)
    ensures r.Success? && inner.Some? && outer.Some? && outer.value.size > 0 ==>
              && inner.value.size > 0
              && r.value == Some(Product(Trim(inner.value), outer.value))
    ensures r.Success? && inner.Some? && outer.Some? && outer.value.size == 0 ==>
              r.value == Some(Product(inner.value, outer.value))
  {
    if inner.None? || outer.None? then Success(None)
    else
      var B := outer.value.size;
      if B == 0 then Success(Some(Product(inner.value, outer.value)))
      else
        var clone := CloneGraph(inner);
        if clone.Failure? then Failure(clone.error)
        else
          assert inner.value.size > 0 by {
            assert HasZero(inner.value.indegree);
          }
          var factor := clone.value.value;
          assert Copies(factor, B) == Copies(Trim(inner.value), B);
          Success(Some(Product(factor, outer.value)))
  }

  /** The arc lists of the product are those of the copies plus the
      bridges. */
  lemma ProductSplit(inner: DAG, outer: DAG, v: Vertex, w: Vertex)
    requires WellSized(inner) && WellSized(outer) && OutArcsInRange(outer)
    requires outer.size == 0 || inner.size > 0
    requires v < inner.size * outer.size
    ensures v < Product(inner, outer).size && v < Copies(inner, outer.size).size
    ensures w in Product(inner, outer).outArcs[v] <==>
              w in Copies(inner, outer.size).outArcs[v] || (v, w) in Bridges(inner.size, outer.outArcs, outer.size)
    ensures w in Product(inner, outer).inArcs[v] <==>
              w in Copies(inner, outer.size).inArcs[v] || (w, v) in Bridges(inner.size, outer.outArcs, outer.size)
  {
  }

  /** Vertex `a` of copy `i` has the inner out-neighbours of `a`, raised
      by `i * A`, as its copy arcs. */
  lemma CopiesOut(inner: DAG, B: nat, i: nat, a: nat, w: Vertex)
    requires WellSized(inner) && i < B && a < inner.size
    ensures Pos(inner.size, i, a) < Copies(inner, B).size
    ensures w in Copies(inner, B).outArcs[Pos(inner.size, i, a)] <==>
              w >= i * inner.size && w - i * inner.size in inner.outArcs[a]
  {
    PosBound(inner.size, B, i, a);
    GlueAt(inner.outArcs, B, i, a);
    ShiftMembers(inner.outArcs[a], i * inner.size, w);
  }

  /** Likewise for the in-neighbours. */
  lemma CopiesIn(inner: DAG, B: nat, j: nat, b: nat, u: Vertex)
    requires WellSized(inner) && j < B && b < inner.size
    ensures Pos(inner.size, j, b) < Copies(inner, B).size
    ensures u in Copies(inner, B).inArcs[Pos(inner.size, j, b)] <==>
              u >= j * inner.size && u - j * inner.size in inner.inArcs[b]
  {
    PosBound(inner.size, B, j, b);
    GlueAt(inner.inArcs, B, j, b);
    ShiftMembers(inner.inArcs[b], j * inner.size, u);
  }

  /** The bridges leaving vertex `a` of copy `i`: none unless `a` is the
      last inner vertex, and then one to every vertex of each copy `t` with
      an outer arc `i -> t`. */
  lemma BridgesFrom(A: nat, outs: seq<seq<Vertex>>, B: nat, i: nat, a: nat, w: Vertex)
    requires B <= |outs| && i < B && a < A
    ensures (Pos(A, i, a), w) in Bridges(A, outs, B) <==>
              a == A - 1 && exists t :: t in outs[i] && Pos(A, t, 0) <= w < Pos(A, t, 0) + A
  {
    var v := Pos(A, i, a);
    BridgesMembers(A, outs, B, (v, w));
    if (v, w) in Bridges(A, outs, B) {
      var i', t :| 0 <= i' < B && t in outs[i'] && v == Pos(A, i', A - 1) && Pos(A, t, 0) <= w < Pos(A, t, 0) + A;
      PosUnique(A, i', A - 1, i, a);
    }
  }

  /** The bridges entering vertex `b` of copy `j`: one from the last vertex
      of every copy `i` with an outer arc `i -> j`. */
  lemma BridgesInto(A: nat, outs: seq<seq<Vertex>>, B: nat, j: nat, b: nat, u: Vertex)
    requires B <= |outs| && b < A
    ensures (u, Pos(A, j, b)) in Bridges(A, outs, B) <==>
              exists i :: 0 <= i < B && j in outs[i] && u == Pos(A, i, A - 1)
  {
    var w := Pos(A, j, b);
    BridgesMembers(A, outs, B, (u, w));
    if (u, w) in Bridges(A, outs, B) {
      var i, t :| 0 <= i < B && t in outs[i] && u == Pos(A, i, A - 1) && Pos(A, t, 0) <= w < Pos(A, t, 0) + A;
      PosUnique(A, t, w - Pos(A, t, 0), j, b);
    }
    if exists i :: 0 <= i < B && j in outs[i] && u == Pos(A, i, A - 1) {
      var i :| 0 <= i < B && j in outs[i] && u == Pos(A, i, A - 1);
      assert Pos(A, j, 0) <= w < Pos(A, j, 0) + A;
    }
  }

  /** Outgoing arcs of the product: vertex `a` of copy `i` points to the
      copy-`i` renumbering of the inner out-neighbours of `a`, and, when `a`
      is the last inner vertex, to every vertex of each copy `t` with an
      outer arc `i -> t`; to nothing else. */
  lemma ProductOutArcs(inner: DAG, outer: DAG, i: nat, a: nat, w: Vertex)
    requires WellSized(inner) && WellSized(outer) && OutArcsInRange(outer)
    requires i < outer.size && a < inner.size
    ensures Pos(inner.size, i, a) < Product(inner, outer).size
    ensures w in Product(inner, outer).outArcs[Pos(inner.size, i, a)] <==>
              || (w >= i * inner.size && w - i * inner.size in inner.outArcs[a])
              || (a == inner.size - 1 &&
                  exists t :: t in outer.outArcs[i] && Pos(inner.size, t, 0) <= w < Pos(inner.size, t, 0) + inner.size)
  {
    CopiesOut(inner, outer.size, i, a, w);
    ProductSplit(inner, outer, Pos(inner.size, i, a), w);
    BridgesFrom(inner.size, outer.outArcs, outer.size, i, a, w);
  }

  /** Incoming arcs of the product: vertex `b` of copy `j` is entered from
      the copy-`j` renumbering of the inner in-neighbours of `b`, and from the
      last vertex of every copy `i` with an outer arc `i -> j`; from nothing
      else. */
  lemma ProductInArcs(inner: DAG, outer: DAG, j: nat, b: nat, u: Vertex)
    requires WellSized(inner) && WellSized(outer) && OutArcsInRange(outer)
    requires j < outer.size && b < inner.size
    ensures Pos(inner.size, j, b) < Product(inner, outer).size
    ensures u in Product(inner, outer).inArcs[Pos(inner.size, j, b)] <==>
              || (u >= j * inner.size && u - j * inner.size in inner.inArcs[b])
              || (exists i :: 0 <= i < outer.size && j in outer.outArcs[i] && u == Pos(inner.size, i, inner.size - 1))
  {
    CopiesIn(inner, outer.size, j, b, u);
    ProductSplit(inner, outer, Pos(inner.size, j, b), u);
    BridgesInto(inner.size, outer.outArcs, outer.size, j, b, u);
  }

  /** Counted with repetition, vertex `a` of copy `i` has the out-arcs of
      inner vertex `a`, plus, when `a` is the last inner vertex, A bridge
      arcs for each outer arc leaving `i`: every outer arc adds exactly A
      arcs, and a repeated outer arc adds them again. */
  lemma ProductOutLength(inner: DAG, outer: DAG, i: nat, a: nat)
    requires WellSized(inner) && WellSized(outer) && OutArcsInRange(outer)
    requires i < outer.size && a < inner.size
    ensures Pos(inner.size, i, a) < Product(inner, outer).size
    ensures |Product(inner, outer).outArcs[Pos(inner.size, i, a)]| ==
            |inner.outArcs[a]| + (if a == inner.size - 1 then inner.size * |outer.outArcs[i]| else 0)
  {
    var A, B := inner.size, outer.size;
    var copies := Copies(inner, B);
    var bridges := Bridges(A, outer.outArcs, B);
    PosBound(A, B, i, a);
    GlueAt(inner.outArcs, B, i, a);
    BridgesInRange(A, outer);
    AddArcsOutLength(copies, bridges, Pos(A, i, a));
    BridgesOutCount(A, outer.outArcs, B, i, a);
  }

  /** An outer arc `i -> t` makes the last vertex of copy `i` point to every
      vertex of copy `t`, and each of those lists it as an in-neighbour. */
  lemma BridgeArc(inner: DAG, outer: DAG, i: nat, t: nat, b: nat)
    requires WellSized(inner) && WellSized(outer) && OutArcsInRange(outer)
    requires i < outer.size && t in outer.outArcs[i] && b < inner.size
    ensures Pos(inner.size, i, inner.size - 1) < Product(inner, outer).size
    ensures Pos(inner.size, t, b) < Product(inner, outer).size
    ensures Pos(inner.size, t, b) in Product(inner, outer).outArcs[Pos(inner.size, i, inner.size - 1)]
    ensures Pos(inner.size, i, inner.size - 1) in Product(inner, outer).inArcs[Pos(inner.size, t, b)]
  {
    var A := inner.size;
    var k :| 0 <= k < |outer.outArcs[i]| && outer.outArcs[i][k] == t;
    assert t < outer.size;
    assert Pos(A, t, 0) <= Pos(A, t, b) < Pos(A, t, 0) + A;
    ProductOutArcs(inner, outer, i, A - 1, Pos(A, t, b));
    ProductInArcs(inner, outer, t, b, Pos(A, i, A - 1));
  }

  /** An inner arc `a -> a'` listed at both ends is listed at both ends in
      every copy. */
  lemma CopyArcMirrored(inner: DAG, outer: DAG, i: nat, a: nat, a': nat)
    requires WellSized(inner) && WellSized(outer) && OutArcsInRange(outer)
    requires i < outer.size && a < inner.size && a' < inner.size
    requires a' in inner.outArcs[a] && a in inner.inArcs[a']
    ensures Pos(inner.size, i, a) < Product(inner, outer).size
    ensures Pos(inner.size, i, a') < Product(inner, outer).size
    ensures Pos(inner.size, i, a) in Product(inner, outer).inArcs[Pos(inner.size, i, a')]
    ensures Pos(inner.size, i, a') in Product(inner, outer).outArcs[Pos(inner.size, i, a)]
  {
    ProductOutArcs(inner, outer, i, a, Pos(inner.size, i, a'));
    ProductInArcs(inner, outer, i, a', Pos(inner.size, i, a));
  }

  lemma OutArcAt(inner: DAG, outer: DAG, i: nat, a: nat, w: Vertex)
    requires WellSized(inner) && Mirrored(inner) && WellSized(outer) && OutArcsInRange(outer)
    requires outer.size == 0 || inner.size > 0
    requires i < outer.size && a < inner.size
    requires Pos(inner.size, i, a) < Product(inner, outer).size
    requires w in Product(inner, outer).outArcs[Pos(inner.size, i, a)]
    ensures w < Product(inner, outer).size && Pos(inner.size, i, a) in Product(inner, outer).inArcs[w]
  {
    var A := inner.size;
    var inCopy := w >= i * A && w - i * A in inner.outArcs[a];
    ProductOutArcs(inner, outer, i, a, w);
    if inCopy {
      var a' := w - i * A;
      var k :| 0 <= k < |inner.outArcs[a]| && inner.outArcs[a][k] == a';
      assert a' < A && a in inner.inArcs[a'];
      CopyArcMirrored(inner, outer, i, a, a');
    } else {
      var t :| t in outer.outArcs[i] && Pos(A, t, 0) <= w < Pos(A, t, 0) + A;
      BridgeArc(inner, outer, i, t, w - Pos(A, t, 0));
    }
  }

  lemma InArcAt(inner: DAG, outer: DAG, j: nat, b: nat, u: Vertex)
    requires WellSized(inner) && Mirrored(inner) && WellSized(outer) && OutArcsInRange(outer)
    requires outer.size == 0 || inner.size > 0
    requires j < outer.size && b < inner.size
    requires Pos(inner.size, j, b) < Product(inner, outer).size
    requires u in Product(inner, outer).inArcs[Pos(inner.size, j, b)]
    ensures u < Product(inner, outer).size && Pos(inner.size, j, b) in Product(inner, outer).outArcs[u]
  {
    var A := inner.size;
    var inCopy := u >= j * A && u - j * A in inner.inArcs[b];
    ProductInArcs(inner, outer, j, b, u);
    if inCopy {
      var a' := u - j * A;
      var k :| 0 <= k < |inner.inArcs[b]| && inner.inArcs[b][k] == a';
      assert a' < A && b in inner.outArcs[a'];
      CopyArcMirrored(inner, outer, j, a', b);
    } else {
      var i :| 0 <= i < outer.size && j in outer.outArcs[i] && u == Pos(A, i, A - 1);
      BridgeArc(inner, outer, i, j, b);
    }
  }

  /** An out-arc of the product is listed at its target. */
  lemma ProductOutArcMirrored(inner: DAG, outer: DAG, v: Vertex, w: Vertex)
    requires WellSized(inner) && Mirrored(inner) && WellSized(outer) && OutArcsInRange(outer)
    requires outer.size == 0 || inner.size > 0
    requires v < Product(inner, outer).size && w in Product(inner, outer).outArcs[v]
    ensures w < Product(inner, outer).size && v in Product(inner, outer).inArcs[w]
  {
    PosOf(inner.size, outer.size, v);
    OutArcAt(inner, outer, v / inner.size, v % inner.size, w);
  }

  /** An in-arc of the product is listed at its source. */
  lemma ProductInArcMirrored(inner: DAG, outer: DAG, w: Vertex, u: Vertex)
    requires WellSized(inner) && Mirrored(inner) && WellSized(outer) && OutArcsInRange(outer)
    requires outer.size == 0 || inner.size > 0
    requires w < Product(inner, outer).size && u in Product(inner, outer).inArcs[w]
    ensures u < Product(inner, outer).size && w in Product(inner, outer).outArcs[u]
  {
    PosOf(inner.size, outer.size, w);
    InArcAt(inner, outer, w / inner.size, w % inner.size, u);
  }

  /** If the inner graph lists each arc at both ends, so does the product. */
  lemma ProductMirrored(inner: DAG, outer: DAG)
    requires WellSized(inner) && Mirrored(inner) && WellSized(outer) && OutArcsInRange(outer)
    requires outer.size == 0 || inner.size > 0
    ensures WellSized(Product(inner, outer)) && Mirrored(Product(inner, outer))
  {
    var p := Product(inner, outer);
    forall v, k | 0 <= v < p.size && 0 <= k < |p.outArcs[v]|
      ensures p.outArcs[v][k] < p.size && v in p.inArcs[p.outArcs[v][k]]
    {
      ProductOutArcMirrored(inner, outer, v, p.outArcs[v][k]);
    }
    forall w, k | 0 <= w < p.size && 0 <= k < |p.inArcs[w]|
      ensures p.inArcs[w][k] < p.size && w in p.outArcs[p.inArcs[w][k]]
    {
      ProductInArcMirrored(inner, outer, w, p.inArcs[w][k]);
    }
  }
}

=== FILE: pyramid.dfy ===
/** The pyramid graph of height h built by create_piramid_graph in dag.c.
    Vertices are numbered row by row from the bottom; row i (0 <= i <= h)
    holds h + 1 - i vertices, and the vertex at position j of row i is
    `RowStart(h, i) + j`. Every vertex below the top points to the one or two
    vertices of the next row that sit above it. */
module Pyramid {
  import opened Wrappers
  import opened Dag

  /** The first vertex of row `i`; row `i - 1` holds h + 2 - i vertices. */
  function RowStart(h: nat, i: nat): nat
    requires i <= h + 1
  {
    if i == 0 then 0 else RowStart(h, i - 1) + (h + 2 - i)
  }

  /** The number of vertices: all rows. */
  function Size(h: nat): nat {
    RowStart(h, h + 1)
  }

  /** The vertex at position `j` of row `i`. */
  function At(h: nat, i: nat, j: nat): Vertex
    requires i <= h && j <= h - i
  {
    RowStart(h, i) + j
  }

  lemma {:induction false} RowStartFormula(h: nat, i: nat)
    requires i <= h + 1
    ensures 2 * RowStart(h, i) == i * (2 * h + 3 - i)
  {
    if i > 0 {
      RowStartFormula(h, i - 1);
      assert 2 * RowStart(h, i) == (i - 1) * (2 * h + 4 - i) + 2 * (h + 2 - i);
      assert (i - 1) * (2 * h + 4 - i) == i * (2 * h + 4 - i) - (2 * h + 4 - i);
      assert i * (2 * h + 4 - i) == i * (2 * h + 3 - i) + i;
    }
  }

  /** The vertex count is the one dag.c allocates: (h+2)(h+1)/2. */
  lemma SizeFormula(h: nat)
    ensures Size(h) == (h + 2) * (h + 1) / 2
    ensures RowStart(h, 1) == h + 1
  {
    RowStartFormula(h, h + 1);
    assert (h + 1) * (2 * h + 3 - (h + 1)) == (h + 2) * (h + 1);
  }

  lemma {:induction false} RowStartMonotone(h: nat, i: nat, k: nat)
    requires i <= k <= h + 1
    ensures RowStart(h, i) <= RowStart(h, k)
    decreases k - i
  {
    if i < k {
      RowStartMonotone(h, i, k - 1);
    }
  }

  /** Row and position of vertex `v`, searching from row `i` upwards. */
  function LocateFrom(h: nat, v: nat, i: nat): (p: (nat, nat))
    requires i <= h && RowStart(h, i) <= v < Size(h)
    ensures i <= p.0 <= h && p.1 <= h - p.0 && At(h, p.0, p.1) == v
    decreases h - i
  {
    if v < RowStart(h, i + 1) then (i, v - RowStart(h, i)) else LocateFrom(h, v, i + 1)
  }

  /** Row and position of vertex `v`. */
  function Locate(h: nat, v: nat): (p: (nat, nat))
    requires v < Size(h)
    ensures p.0 <= h && p.1 <= h - p.0 && At(h, p.0, p.1) == v
  {
    LocateFrom(h, v, 0)
  }

  /** Each vertex has exactly one row and position. */
  lemma LocateAt(h: nat, i: nat, j: nat)
    requires i <= h && j <= h - i
    ensures At(h, i, j) < Size(h)
    ensures Locate(h, At(h, i, j)) == (i, j)
  {
    RowStartMonotone(h, i + 1, h + 1);
    LocateFromAt(h, i, j, 0);
  }

  lemma {:induction false} LocateFromAt(h: nat, i: nat, j: nat, k: nat)
    requires i <= h && j <= h - i && k <= i
    requires At(h, i, j) < Size(h)
    ensures RowStart(h, k) <= At(h, i, j)
    ensures LocateFrom(h, At(h, i, j), k) == (i, j)
    decreases i - k
  {
    RowStartMonotone(h, k, i);
    if k < i {
      RowStartMonotone(h, k + 1, i);
      LocateFromAt(h, i, j, k + 1);
    }
  }

  /** Outgoing buffer of `v` as create_piramid_graph fills it: the first
      vertex of a row points right-up (v+h+1-i), the last left-up (v+h-i),
      an interior one left-up then right-up, and the top vertex nowhere. */
  function Out(h: nat, v: Vertex): (r: seq<Vertex>)
    requires v < Size(h)
    ensures |r| == OutDegree(h, v)
  {
    var (i, j) := Locate(h, v);
    if i == h then []
    else if j == 0 then [v + h + 1 - i]
    else if j == h - i then [v + h - i]
    else [v + h - i, v + h + 1 - i]
  }

  /** Outdegree as the degree loop sets it: 1 at both ends of a row below
      the top, 2 inside, 0 (calloc) for the top vertex. */
  function OutDegree(h: nat, v: Vertex): nat
    requires v < Size(h)
  {
    var (i, j) := Locate(h, v);
    if i == h then 0 else if j == 0 || j == h - i then 1 else 2
  }

  /** Indegree as the degree loop sets it: 2 from vertex h+1 on, 0 below. */
  function InDegree(h: nat, v: Vertex): nat {
    if v >= h + 1 then 2 else 0
  }

  /** Incoming buffer of `w`: slot 0 holds the vertex whose right-up arc
      reaches `w` (the one below-left), slot 1 the vertex whose left-up arc
      reaches it (below-right). Bottom-row vertices have none. */
  function In(h: nat, w: Vertex): (r: seq<Vertex>)
    requires w < Size(h)
    ensures |r| == InDegree(h, w)
  {
    var (i, j) := Locate(h, w);
    assert i == 0 <==> w < h + 1 by {
      if i > 0 {
        RowStartMonotone(h, 1, i);
      }
    }
    if i == 0 then [] else [At(h, i - 1, j), At(h, i - 1, j + 1)]
  }

  /** The graph before dag_precompute_data runs. */
  function Raw(h: nat): (r: DAG)
    ensures r.size == Size(h) && BuffersMatch(r) && r.derived == None
  {
    var n := Size(h);
    DAG(n,
        seq(n, v requires 0 <= v < n => InDegree(h, v)),
        seq(n, v requires 0 <= v < n => OutDegree(h, v)),
        seq(n, v requires 0 <= v < n => In(h, v)),
        seq(n, v requires 0 <= v < n => Out(h, v)),
        None)
  }

  /** create_piramid_graph: build, then precompute sources and sinks. */
  function CreatePiramidGraph(h: nat): (r: Result<DAG, DagError>)
    ensures r.Success? && r.value.size == Size(h) && BuffersMatch(r.value)
  {
    assert HasZero(Raw(h).indegree) && HasZero(Raw(h).outdegree) by {
      RawSinks(h);
      assert Raw(h).indegree[0] == 0;
      assert Size(h) - 1 in [Size(h) - 1];
    }
    Precompute(Raw(h))
  }

  /** The arcs leaving the vertex at (i, j): to (i+1, j-1) when j > 0 and to
      (i+1, j) when j < h - i, in that order; none from the top. */
  lemma OutArcs(h: nat, i: nat, j: nat)
    requires i <= h && j <= h - i
    ensures At(h, i, j) < Size(h)
    ensures i == h ==> Out(h, At(h, i, j)) == []
    ensures i < h ==>
              Out(h, At(h, i, j)) == (if j > 0 then [At(h, i + 1, j - 1)] else []) + (if j < h - i then [At(h, i + 1, j)] else [])
    ensures |Out(h, At(h, i, j))| == OutDegree(h, At(h, i, j))
  {
    LocateAt(h, i, j);
  }

  /** The arcs entering the vertex at (i, j): from (i-1, j) and (i-1, j+1);
      none into the bottom row. */
  lemma InArcs(h: nat, i: nat, j: nat)
    requires i <= h && j <= h - i
    ensures At(h, i, j) < Size(h)
    ensures i == 0 ==> In(h, At(h, i, j)) == []
    ensures i > 0 ==> In(h, At(h, i, j)) == [At(h, i - 1, j), At(h, i - 1, j + 1)]
    ensures |In(h, At(h, i, j))| == InDegree(h, At(h, i, j))
  {
    LocateAt(h, i, j);
    SizeFormula(h);
    if i > 0 {
      RowStartMonotone(h, 1, i);
    }
  }

  /** The incoming slots are written exactly as the arc loop writes them:
      a right-up arc from `v` fills slot 0 of its target, a left-up arc
      fills slot 1. */
  lemma InSlots(h: nat, i: nat, j: nat)
    requires i < h && j <= h - i
    ensures j < h - i ==>
              && At(h, i + 1, j) == At(h, i, j) + h + 1 - i
              && At(h, i + 1, j) < Size(h) && |In(h, At(h, i + 1, j))| == 2
              && In(h, At(h, i + 1, j))[0] == At(h, i, j)
    ensures j > 0 ==>
              && At(h, i + 1, j - 1) == At(h, i, j) + h - i
              && At(h, i + 1, j - 1) < Size(h) && |In(h, At(h, i + 1, j - 1))| == 2
              && In(h, At(h, i + 1, j - 1))[1] == At(h, i, j)
  {
    if j < h - i {
      InArcs(h, i + 1, j);
    }
    if j > 0 {
      InArcs(h, i + 1, j - 1);
    }
  }

  /** Degree arrays and buffers of the pyramid agree. */
  lemma RawBuffersMatch(h: nat)
    ensures BuffersMatch(Raw(h))
  {
    var d := Raw(h);
    forall v | 0 <= v < d.size
      ensures |d.inArcs[v]| == d.indegree[v] && |d.outArcs[v]| == d.outdegree[v]
    {
      var (i, j) := Locate(h, v);
      InArcs(h, i, j);
      OutArcs(h, i, j);
    }
  }

  /** Both ends of every arc leaving `v` list it. */
  lemma OutArcMirrored(h: nat, v: Vertex, k: nat)
    requires v < Size(h) && k < |Out(h, v)|
    ensures Out(h, v)[k] < Size(h) && v in In(h, Out(h, v)[k])
  {
    var (i, j) := Locate(h, v);
    OutArcs(h, i, j);
    InSlots(h, i, j);
  }

  /** Both ends of every arc entering `w` list it. */
  lemma InArcMirrored(h: nat, w: Vertex, k: nat)
    requires w < Size(h) && k < |In(h, w)|
    ensures In(h, w)[k] < Size(h) && w in Out(h, In(h, w)[k])
  {
    var (i, j) := Locate(h, w);
    InArcs(h, i, j);
    if k == 0 {
      OutArcs(h, i - 1, j);
    } else {
      OutArcs(h, i - 1, j + 1);
    }
  }

  /** Every arc of the pyramid is listed at both of its ends. */
  lemma RawMirrored(h: nat)
    ensures WellSized(Raw(h)) && Mirrored(Raw(h))
  {
    var d := Raw(h);
    forall v, k | 0 <= v < d.size && 0 <= k < |d.outArcs[v]|
      ensures d.outArcs[v][k] < d.size && v in d.inArcs[d.outArcs[v][k]]
    {
      OutArcMirrored(h, v, k);
    }
    forall w, k | 0 <= w < d.size && 0 <= k < |d.inArcs[w]|
      ensures d.inArcs[w][k] < d.size && w in d.outArcs[d.inArcs[w][k]]
    {
      InArcMirrored(h, w, k);
    }
  }

  /** Exactly the bottom row, vertices 0..h, has indegree 0. */
  lemma RawSources(h: nat)
    ensures ListsZeros(seq(h + 1, v => v), Raw(h).indegree)
  {
    SizeFormula(h);
    RowStartMonotone(h, 1, h + 1);
    var xs := seq(h + 1, v => v);
    forall v
      ensures v in xs <==> 0 <= v < |Raw(h).indegree| && Raw(h).indegree[v] == 0
    {
      if 0 <= v <= h {
        assert xs[v] == v;
      }
    }
  }

  /** Exactly the top vertex, Size(h) - 1, has outdegree 0. */
  lemma RawSinks(h: nat)
    ensures Size(h) > 0
    ensures ListsZeros([Size(h) - 1], Raw(h).outdegree)
  {
    var top := At(h, h, 0);
    LocateAt(h, h, 0);
    var deg := Raw(h).outdegree;
    forall v | 0 <= v < Size(h)
      ensures OutDegree(h, v) == 0 <==> v == top
    {
      var (i, j) := Locate(h, v);
      if i == h {
        assert v == top;
      }
    }
    assert forall v :: 0 <= v < |deg| ==> deg[v] == OutDegree(h, v);
  }

  /** create_piramid_graph never aborts; its sources are the bottom row
      0..h and its single sink is the top vertex. */
  lemma PiramidSourcesAndSinks(h: nat)
    ensures CreatePiramidGraph(h).Success?
    ensures CreatePiramidGraph(h).value.derived ==
            Some(Derived(seq(h + 1, v => v), [Size(h) - 1]))
  {
    RawSources(h);
    RawSinks(h);
    var d := Raw(h);
    assert 0 in seq(h + 1, v => v);
    assert Size(h) - 1 in [Size(h) - 1];
    var r := Precompute(d);
    ListsZerosIsZeros(seq(h + 1, v => v), d.indegree);
    ListsZerosIsZeros([Size(h) - 1], d.outdegree);
    ListsZerosIsZeros(r.value.derived.value.sources, d.indegree);
    ListsZerosIsZeros(r.value.derived.value.sinks, d.outdegree);
  }

  /** The number of arcs a sequence of buffers lists, repeats included. */
  function ArcTotal(bufs: seq<seq<Vertex>>): nat {
    if |bufs| == 0 then 0 else ArcTotal(bufs[..|bufs| - 1]) + |bufs[|bufs| - 1]|
  }

  lemma ArcTotalStep(bufs: seq<seq<Vertex>>, k: nat)
    requires k < |bufs|
    ensures ArcTotal(bufs[..k + 1]) == ArcTotal(bufs[..k]) + |bufs[k]|
  {
    assert bufs[..k + 1][..k] == bufs[..k];
  }

  /** The outgoing arcs of row `i`, positions 0..j-1: 1 for the first vertex
      and 2 for each further one, the last vertex adding 1, so 2(h-i) over
      a whole row below the top; the top vertex adds none. */
  function RowOutPart(h: nat, i: nat, j: nat): nat {
    if i >= h || j == 0 then 0
    else if j <= h - i then 2 * j - 1
    else 2 * (h - i)
  }

  /** The outgoing arcs of the rows below row `i`: 2(h-r) for row r. */
  function RowsOut(h: nat, i: nat): nat {
    if i == 0 || i > h + 1 then 0 else RowsOut(h, i - 1) + 2 * (h + 1 - i)
  }

  lemma {:induction false} RowsOutFormula(h: nat, i: nat)
    requires i <= h
    ensures RowsOut(h, i) + (h - i) * (h - i + 1) == h * (h + 1)
  {
    if i > 0 {
      RowsOutFormula(h, i - 1);
      ProductStep(h - i);
    }
  }

  lemma ProductStep(k: nat)
    ensures (k + 1) * (k + 2) == k * (k + 1) + 2 * (k + 1)
  {
  }

  /** The outdegree of the vertex at position j of row i. */
  function RowOutDegree(h: nat, i: nat, j: nat): nat {
    if i == h then 0 else if j == 0 || j == h - i then 1 else 2
  }

  lemma OutDegreeAt(h: nat, i: nat, j: nat)
    requires i <= h && j <= h - i
    ensures At(h, i, j) < Size(h)
    ensures OutDegree(h, At(h, i, j)) == RowOutDegree(h, i, j)
  {
    LocateAt(h, i, j);
  }

  /** Positions 0..j of row i lie inside the pyramid. */
  lemma RowFits(h: nat, i: nat, j: nat)
    requires i <= h && j <= h - i + 1
    ensures RowStart(h, i) + j <= Size(h)
  {
    RowStartMonotone(h, i + 1, h + 1);
  }

  /** Adding the vertex at position j - 1 of row i to the prefix. */
  lemma OutPrefixStep(h: nat, outs: seq<seq<Vertex>>, i: nat, j: nat)
    requires |outs| == Size(h)
    requires forall i: nat, j: nat :: i <= h && j <= h - i ==> At(h, i, j) < |outs| && |outs[At(h, i, j)]| == RowOutDegree(h, i, j)
    requires i <= h && 0 < j <= h - i + 1 && RowStart(h, i) + j <= Size(h)
    requires ArcTotal(outs[..RowStart(h, i) + j - 1]) == RowsOut(h, i) + RowOutPart(h, i, j - 1)
    ensures ArcTotal(outs[..RowStart(h, i) + j]) == RowsOut(h, i) + RowOutPart(h, i, j)
  {
    var v := At(h, i, j - 1);
    assert |outs[v]| == RowOutDegree(h, i, j - 1);
    ArcTotalStep(outs, v);
  }

  /** Outgoing arcs of all vertices before position j of row i, for any
      buffers whose lengths are the pyramid's outdegrees. */
  lemma {:induction false} OutPrefixTotal(h: nat, outs: seq<seq<Vertex>>, i: nat, j: nat)
    requires |outs| == Size(h)
    requires forall i: nat, j: nat :: i <= h && j <= h - i ==> At(h, i, j) < |outs| && |outs[At(h, i, j)]| == RowOutDegree(h, i, j)
    requires i <= h && j <= h - i + 1
    ensures RowStart(h, i) + j <= Size(h)
    ensures ArcTotal(outs[..RowStart(h, i) + j]) == RowsOut(h, i) + RowOutPart(h, i, j)
    decreases i, j
  {
    RowFits(h, i, j);
    if j > 0 {
      OutPrefixTotal(h, outs, i, j - 1);
      OutPrefixStep(h, outs, i, j);
    } else if i > 0 {
      OutPrefixTotal(h, outs, i - 1, h - i + 2);
      assert RowStart(h, i) == RowStart(h, i - 1) + (h - i + 2);
    } else {
      assert outs[..0] == [];
    }
  }

  /** Incoming arcs of the vertices below `v`, for any buffers whose
      lengths are the pyramid's indegrees: two for each vertex from h + 1
      on. */
  lemma {:induction false} InPrefixTotal(h: nat, ins: seq<seq<Vertex>>, v: nat)
    requires forall w :: 0 <= w < |ins| ==> |ins[w]| == InDegree(h, w)
    requires v <= |ins|
    ensures ArcTotal(ins[..v]) == (if v <= h + 1 then 0 else 2 * (v - (h + 1)))
  {
    if v == 0 {
      assert ins[..0] == [];
    } else {
      InPrefixTotal(h, ins, v - 1);
      ArcTotalStep(ins, v - 1);
    }
  }

  /** Any buffers with the pyramid's outdegrees list h(h+1) arcs. */
  lemma OutTotal(h: nat, outs: seq<seq<Vertex>>)
    requires |outs| == Size(h)
    requires forall i: nat, j: nat :: i <= h && j <= h - i ==> At(h, i, j) < |outs| && |outs[At(h, i, j)]| == RowOutDegree(h, i, j)
    ensures ArcTotal(outs) == h * (h + 1)
  {
    assert Size(h) == RowStart(h, h) + 1;
    OutPrefixTotal(h, outs, h, 1);
    assert outs[..Size(h)] == outs;
    RowsOutFormula(h, h);
  }

  /** Any buffers with the pyramid's indegrees list h(h+1) arcs. */
  lemma InTotal(h: nat, ins: seq<seq<Vertex>>)
    requires |ins| == Size(h)
    requires forall w :: 0 <= w < |ins| ==> |ins[w]| == InDegree(h, w)
    ensures ArcTotal(ins) == h * (h + 1)
  {
    var p: nat := h * (h + 1);
    InPrefixTotal(h, ins, Size(h));
    assert ins[..Size(h)] == ins;
    assert 2 * Size(h) == p + 2 * (h + 1) by {
      RowStartFormula(h, h + 1);
      assert 2 * h + 3 - (h + 1) == h + 2;
      ProductStep(h);
    }
  }

  lemma PyramidOutTotal(h: nat)
    ensures ArcTotal(Raw(h).outArcs) == h * (h + 1)
  {
    var outs := Raw(h).outArcs;
    forall i: nat, j: nat | i <= h && j <= h - i
      ensures At(h, i, j) < |outs| && |outs[At(h, i, j)]| == RowOutDegree(h, i, j)
    {
      OutDegreeAt(h, i, j);
    }
    OutTotal(h, outs);
  }

  lemma PyramidInTotal(h: nat)
    ensures ArcTotal(Raw(h).inArcs) == h * (h + 1)
  {
    InTotal(h, Raw(h).inArcs);
  }

  /** Over the whole pyramid the outgoing buffers list as many arcs as the
      incoming ones: h(h+1) each. */
  lemma PyramidArcTotals(h: nat)
    ensures ArcTotal(Raw(h).outArcs) == h * (h + 1)
    ensures ArcTotal(Raw(h).inArcs) == h * (h + 1)
  {
    PyramidOutTotal(h);
    PyramidInTotal(h);
  }

  /** The pyramid of height 2 has rows {0,1,2}, {3,4}, {5}: these are its
      outgoing buffers. */
  lemma HeightTwoOut(h: nat)
    requires h == 2
    ensures Size(h) == 6
    ensures Raw(h).outArcs == [[3], [3, 4], [4], [5], [5], []]
  {
    assert RowStart(h, 1) == 3 && RowStart(h, 2) == 5 && RowStart(h, 3) == 6;
    var d := Raw(h);
    OutArcs(h, 0, 0); OutArcs(h, 0, 1); OutArcs(h, 0, 2);
    OutArcs(h, 1, 0); OutArcs(h, 1, 1); OutArcs(h, 2, 0);
    assert d.outArcs[0] == [3] && d.outArcs[1] == [3, 4] && d.outArcs[2] == [4];
    assert d.outArcs[3] == [5] && d.outArcs[4] == [5] && d.outArcs[5] == [];
  }

  /** The incoming buffers of the pyramid of height 2. */
  lemma HeightTwoIn(h: nat)
    requires h == 2
    ensures Size(h) == 6
    ensures Raw(h).inArcs == [[], [], [], [0, 1], [1, 2], [3, 4]]
  {
    assert RowStart(h, 1) == 3 && RowStart(h, 2) == 5 && RowStart(h, 3) == 6;
    var d := Raw(h);
    InArcs(h, 0, 0); InArcs(h, 0, 1); InArcs(h, 0, 2);
    InArcs(h, 1, 0); InArcs(h, 1, 1); InArcs(h, 2, 0);
    assert d.inArcs[0] == [] && d.inArcs[1] == [] && d.inArcs[2] == [];
    assert d.inArcs[3] == [0, 1] && d.inArcs[4] == [1, 2] && d.inArcs[5] == [3, 4];
  }
}

=== FILE: singly_linked.dfy ===
/** The pointer structure behind the LinkedList of dsbasic.c. Nodes live in a
    heap from addresses to nodes; address 0 is the null pointer. Allocating a
    node takes an unused address as a parameter and freeing one removes it
    from the heap. `Rep` ties a header and the chain of nodes reached from its
    head to the abstract list of module CursorList, and every operation here is
    proved to perform the corresponding abstract edit. */
module SinglyLinked {
  import opened CursorList

  type Ptr = nat

  const Null: Ptr := 0

  datatype Node<T> = Node(data: T, next: Ptr)

  type Heap<T> = map<Ptr, Node<T>>

  /** The header of a list: four pointers into the heap. */
  datatype LinkedList = LinkedList(head: Ptr, tail: Ptr, cursor: Ptr, beforeCursor: Ptr)

  /** `ps` lists, in order, the distinct allocated nodes met when following
      `next` from `p` until null. */
  predicate IsChain<T>(heap: Heap<T>, p: Ptr, ps: seq<Ptr>) {
    && (if |ps| == 0 then p == Null else p == ps[0])
    && (forall i :: 0 <= i < |ps| ==> ps[i] != Null && ps[i] in heap)
    && (forall i :: 0 <= i < |ps| - 1 ==> heap[ps[i]].next == ps[i + 1])
    && (|ps| > 0 ==> heap[ps[|ps| - 1]].next == Null)
    && (forall i, j :: 0 <= i < j < |ps| ==> ps[i] != ps[j])
  }

  /** The header pointers that isconsistentSL dereferences are null or allocated. */
  predicate Deref<T>(heap: Heap<T>, l: LinkedList) {
    && (l.tail == Null || l.tail in heap)
    && (l.beforeCursor == Null || l.beforeCursor in heap)
  }

  /** The header `l` over chain `ps` represents the abstract list `a`: the
      payloads agree, tail is the last node, and the cursor and its
      predecessor sit at index `a.cursor` and the one before it. */
  ghost predicate Rep<T>(heap: Heap<T>, l: LinkedList, ps: seq<Ptr>, a: SList<T>) {
    && IsChain(heap, l.head, ps)
    && |ps| == |a.items|
    && a.cursor <= |ps|
    && (forall i :: 0 <= i < |ps| ==> heap[ps[i]].data == a.items[i])
    && l.tail == (if |ps| == 0 then Null else ps[|ps| - 1])
    && l.cursor == (if a.cursor < |ps| then ps[a.cursor] else Null)
    && l.beforeCursor == (if a.cursor == 0 then Null else ps[a.cursor - 1])
  }

  /** The checks isconsistentSL performs, for a header whose head reaches the
      finite chain `ps`: all four pointers null on an empty list; otherwise
      tail has no successor, and either there is no cursor predecessor and the
      cursor is the head, or the predecessor's successor is the cursor and the
      predecessor is on the chain. */
  predicate ConsistentAsWritten<T>(heap: Heap<T>, l: LinkedList, ps: seq<Ptr>)
    requires Deref(heap, l)
  {
    if l.head == Null || l.tail == Null then
      l == LinkedList(Null, Null, Null, Null)
    else
      && heap[l.tail].next == Null
      && (if l.beforeCursor == Null then l.cursor == l.head
          else heap[l.beforeCursor].next == l.cursor && l.beforeCursor in ps)
  }

  /** The consistency the list operations rely on: isconsistentSL's checks
      plus "tail is the last node of the chain", which isconsistentSL omits. */
  predicate WellFormed<T>(heap: Heap<T>, l: LinkedList, ps: seq<Ptr>)
    requires Deref(heap, l)
  {
    && ConsistentAsWritten(heap, l, ps)
    && l.tail == (if |ps| == 0 then Null else ps[|ps| - 1])
  }

  /** isconsistentSL: walks the chain from the head looking for the cursor
      predecessor. The chain `ps` is a ghost witness that the walk ends; the
      source itself warns that the walk loops on a cyclic list. */
  method IsConsistentSL<T>(heap: Heap<T>, l: LinkedList, ghost ps: seq<Ptr>) returns (ok: bool)
    requires IsChain(heap, l.head, ps)
    requires Deref(heap, l)
    ensures ok <==> ConsistentAsWritten(heap, l, ps)
  {
    if l.head == Null || l.tail == Null {
      return l.head == Null && l.tail == Null && l.cursor == Null && l.beforeCursor == Null;
    }
    if heap[l.tail].next != Null {
      return false;
    }
    if l.beforeCursor == Null {
      if l.cursor != l.head {
        return false;
      }
    } else {
      if heap[l.beforeCursor].next != l.cursor {
        return false;
      }
      var lelem := l.head;
      ghost var k := 0;
      while lelem != Null
        invariant k <= |ps|
        invariant lelem == (if k < |ps| then ps[k] else Null)
        invariant l.beforeCursor !in ps[..k]
        decreases |ps| - k
      {
        if l.beforeCursor == lelem {
          break;
        }
        lelem := heap[lelem].next;
        k := k + 1;
      }
      if lelem == Null {
        assert ps[..k] == ps;
        return false;
      }
    }
    return true;
  }

  /** The position of `x` in `ps`. */
  function IndexOf(ps: seq<Ptr>, x: Ptr): (k: nat)
    requires x in ps
    ensures k < |ps| && ps[k] == x && x !in ps[..k]
  {
    if ps[0] == x then 0
    else
      assert ps[1..] + [] == ps[1..];
      var k := 1 + IndexOf(ps[1..], x);
      assert ps[..k] == [ps[0]] + ps[1..][..k - 1];
      k
  }

  /** The abstract list a header denotes: payloads along the chain, and the
      cursor one past its predecessor. */
  function Abstraction<T>(heap: Heap<T>, l: LinkedList, ps: seq<Ptr>): SList<T>
    requires IsChain(heap, l.head, ps)
  {
    SList(seq(|ps|, i requires 0 <= i < |ps| => heap[ps[i]].data),
          if l.beforeCursor in ps then IndexOf(ps, l.beforeCursor) + 1 else 0)
  }

  /** A well-formed header represents exactly one abstract list, and a header
      that represents an abstract list is well-formed: WellFormed is the
      abstraction invariant. */
  lemma WellFormedIffRep<T>(heap: Heap<T>, l: LinkedList, ps: seq<Ptr>, a: SList<T>)
    requires IsChain(heap, l.head, ps)
    requires Deref(heap, l)
    ensures Rep(heap, l, ps, a) <==> WellFormed(heap, l, ps) && a == Abstraction(heap, l, ps)
  {
    var b := Abstraction(heap, l, ps);
    if WellFormed(heap, l, ps) {
      if l.beforeCursor != Null {
        var k := IndexOf(ps, l.beforeCursor);
        if k + 1 < |ps| {
          assert heap[ps[k]].next == ps[k + 1];
        }
      }
      assert Rep(heap, l, ps, b);
      if a == b {
        assert Rep(heap, l, ps, a);
      }
    }
    if Rep(heap, l, ps, a) {
      if a.cursor > 0 {
        assert ps[a.cursor - 1] in ps;
        var k := IndexOf(ps, l.beforeCursor);
        assert k == a.cursor - 1;
        if a.cursor < |ps| {
          assert heap[ps[a.cursor - 1]].next == ps[a.cursor];
        }
      } else {
        assert l.beforeCursor !in ps;
      }
      assert a.items == b.items;
      assert WellFormed(heap, l, ps);
    }
  }

  /** A header that represents an abstract list passes isconsistentSL (and
      the stronger WellFormed). With the refinement lemmas below, this is the
      post-assertion every mutator of dsbasic.c makes. */
  lemma RepWellFormed<T>(heap: Heap<T>, l: LinkedList, ps: seq<Ptr>, a: SList<T>)
    requires Rep(heap, l, ps, a)
    ensures Deref(heap, l) && WellFormed(heap, l, ps) && ConsistentAsWritten(heap, l, ps)
  {
    if |ps| > 0 && a.cursor > 0 {
      if a.cursor < |ps| {
        assert heap[ps[a.cursor - 1]].next == ps[a.cursor];
      }
      assert ps[a.cursor - 1] in ps;
    }
  }

  /** A header isconsistentSL accepts although its tail is not on the chain:
      head -> 1 -> null, tail = 2, a detached node with no successor. */
  lemma ConsistencyMissesDetachedTail()
    ensures var heap := map[1 := Node(10, Null), 2 := Node(20, Null)];
            var l := LinkedList(1, 2, 1, Null);
            && IsChain(heap, l.head, [1])
            && Deref(heap, l)
            && ConsistentAsWritten(heap, l, [1])
            && !WellFormed(heap, l, [1])
            && forall a: SList<int> :: !Rep(heap, l, [1], a)
  {
  }

  /** newSL: all four pointers null. */
  function NewSL(): LinkedList {
    LinkedList(Null, Null, Null, Null)
  }

  /** In any heap, a new header represents the empty list. */
  lemma NewSLRep<T>(heap: Heap<T>)
    ensures Rep(heap, NewSL(), [], CursorList.New<T>())
  {
  }

  /** An address malloc may return: not null and not in use. */
  predicate Fresh<T>(heap: Heap<T>, p: Ptr) {
    p != Null && p !in heap
  }

  /** forkcursorSL: the second header receives the same four pointers. */
  function ForkCursorSL(l: LinkedList, sndcursor: LinkedList): LinkedList {
    sndcursor.(head := l.head, tail := l.tail, cursor := l.cursor, beforeCursor := l.beforeCursor)
  }

  /** The forked header is a second traversal position over the same nodes:
      it represents the same abstract list and cursor. */
  lemma ForkCursorSLRep<T>(heap: Heap<T>, l: LinkedList, sndcursor: LinkedList, ps: seq<Ptr>, a: SList<T>)
    requires Rep(heap, l, ps, a)
    ensures Rep(heap, ForkCursorSL(l, sndcursor), ps, a)
  {
  }

  /** insertSL on the pointer structure. The caller guarantees a non-empty
      list with a valid cursor. */
  function InsertSL<T>(heap: Heap<T>, l: LinkedList, data: T, before: bool, lelem: Ptr): (r: (Heap<T>, LinkedList))
    requires Fresh(heap, lelem)
    requires Deref(heap, l) && l.tail != Null
    ensures r.0.Keys == heap.Keys + {lelem}
    ensures forall p :: p in heap && p != l.beforeCursor ==> r.0[p] == heap[p]
  {
    var h1 := heap[lelem := Node(data, l.cursor)];
    var h2 := if l.beforeCursor != Null then h1[l.beforeCursor := h1[l.beforeCursor].(next := lelem)] else h1;
    var head := if h2[lelem].next == l.head then lelem else l.head;
    var tail := if h2[l.tail].next == lelem then lelem else l.tail;
    if before then (h2, LinkedList(head, tail, h2[lelem].next, lelem))
    else (h2, LinkedList(head, tail, lelem, l.beforeCursor))
  }

  /** insertSL splices the new node into the chain just before the cursor
      node and performs the abstract Insert. */
  lemma InsertSLRefines<T>(heap: Heap<T>, l: LinkedList, ps: seq<Ptr>, a: SList<T>, data: T, before: bool, lelem: Ptr)
    requires Rep(heap, l, ps, a) && CursorValid(a)
    requires Fresh(heap, lelem)
    ensures Deref(heap, l) && l.tail != Null
    ensures var r := InsertSL(heap, l, data, before, lelem);
            Rep(r.0, r.1, ps[..a.cursor] + [lelem] + ps[a.cursor..], CursorList.Insert(a, data, before))
  {
    InsertSLChain(heap, l, ps, a, data, before, lelem);
    InsertSLData(heap, l, ps, a, data, before, lelem);
    InsertSLHeader(heap, l, ps, a, data, before, lelem);
  }

  lemma InsertSLChain<T>(heap: Heap<T>, l: LinkedList, ps: seq<Ptr>, a: SList<T>, data: T, before: bool, lelem: Ptr)
    requires Rep(heap, l, ps, a) && CursorValid(a)
    requires Fresh(heap, lelem)
    ensures var r := InsertSL(heap, l, data, before, lelem);
            IsChain(r.0, r.1.head, ps[..a.cursor] + [lelem] + ps[a.cursor..])
  {
    var c := a.cursor;
    var r := InsertSL(heap, l, data, before, lelem);
    InsertSLHeap(heap, l, ps, a, data, before, lelem);
    SplicedChain(heap, r.0, ps, c, lelem);
    if c > 0 {
      assert ps[c] != ps[0];
    }
  }

  lemma InsertSLData<T>(heap: Heap<T>, l: LinkedList, ps: seq<Ptr>, a: SList<T>, data: T, before: bool, lelem: Ptr)
    requires Rep(heap, l, ps, a) && CursorValid(a)
    requires Fresh(heap, lelem)
    ensures var heap' := InsertSL(heap, l, data, before, lelem).0;
            var ps' := ps[..a.cursor] + [lelem] + ps[a.cursor..];
            var a' := CursorList.Insert(a, data, before);
            forall i :: 0 <= i < |ps'| ==> heap'[ps'[i]].data == a'.items[i]
  {
    var c := a.cursor;
    var heap' := InsertSL(heap, l, data, before, lelem).0;
    InsertSLHeap(heap, l, ps, a, data, before, lelem);
    assert CursorList.Insert(a, data, before).items == a.items[..c] + [data] + a.items[c..];
    SplicedData(heap, heap', ps, a.items, c, lelem, data);
  }

  /** Splicing a node holding `d` in at index `c` of a chain whose data
      the new heap keeps splices `d` into the payloads at the same index. */
  lemma SplicedData<T>(heap: Heap<T>, heap': Heap<T>, ps: seq<Ptr>, items: seq<T>, c: nat, x: Ptr, d: T)
    requires |ps| == |items| && c <= |ps|
    requires forall i :: 0 <= i < |ps| ==> ps[i] in heap && heap[ps[i]].data == items[i]
    requires forall p :: p in heap ==> p in heap' && heap'[p].data == heap[p].data
    requires x in heap' && heap'[x].data == d
    ensures var ps' := ps[..c] + [x] + ps[c..];
            var items' := items[..c] + [d] + items[c..];
            |ps'| == |items'| && forall i :: 0 <= i < |ps'| ==> ps'[i] in heap' && heap'[ps'[i]].data == items'[i]
  {
    var ps' := ps[..c] + [x] + ps[c..];
    var items' := items[..c] + [d] + items[c..];
    forall i | 0 <= i < |ps'|
      ensures ps'[i] in heap' && heap'[ps'[i]].data == items'[i]
    {
      if i < c {
        assert ps'[i] == ps[i] && items'[i] == items[i];
      } else if i > c {
        assert ps'[i] == ps[i - 1] && items'[i] == items[i - 1];
      }
    }
  }

  lemma InsertSLHeader<T>(heap: Heap<T>, l: LinkedList, ps: seq<Ptr>, a: SList<T>, data: T, before: bool, lelem: Ptr)
    requires Rep(heap, l, ps, a) && CursorValid(a)
    requires Fresh(heap, lelem)
    ensures var l' := InsertSL(heap, l, data, before, lelem).1;
            var ps' := ps[..a.cursor] + [lelem] + ps[a.cursor..];
            var a' := CursorList.Insert(a, data, before);
            && l'.tail == ps'[|ps'| - 1]
            && l'.cursor == (if a'.cursor < |ps'| then ps'[a'.cursor] else Null)
            && l'.beforeCursor == (if a'.cursor == 0 then Null else ps'[a'.cursor - 1])
  {
    InsertSLTail(heap, l, ps, a, data, before, lelem);
    var c := a.cursor;
    var ps' := ps[..c] + [lelem] + ps[c..];
    var a' := CursorList.Insert(a, data, before);
    InsertSLHeap(heap, l, ps, a, data, before, lelem);
    if before {
      assert a'.cursor == c + 1 && ps'[c + 1] == ps[c];
    } else {
      assert a'.cursor == c && ps'[c] == lelem;
    }
  }

  /** insertSL leaves the tail where it is: the new node goes before the
      cursor node, so it is never last. */
  lemma InsertSLTail<T>(heap: Heap<T>, l: LinkedList, ps: seq<Ptr>, a: SList<T>, data: T, before: bool, lelem: Ptr)
    requires Rep(heap, l, ps, a) && CursorValid(a)
    requires Fresh(heap, lelem)
    ensures var l' := InsertSL(heap, l, data, before, lelem).1;
            var ps' := ps[..a.cursor] + [lelem] + ps[a.cursor..];
            l'.tail == ps'[|ps'| - 1] == l.tail
  {
    var c := a.cursor;
    var ps' := ps[..c] + [lelem] + ps[c..];
    var heap' := InsertSL(heap, l, data, before, lelem).0;
    assert lelem !in ps;
    InsertSLHeap(heap, l, ps, a, data, before, lelem);
    assert ps'[|ps'| - 1] == ps[|ps| - 1];
    assert heap'[l.tail].next == Null by {
      if c > 0 {
        assert ps[c - 1] != ps[|ps| - 1];
      }
    }
  }

  /** The heap after insertSL: the new node points at the old cursor node,
      the cursor's predecessor points at the new node, nothing else moves. */
  lemma InsertSLHeap<T>(heap: Heap<T>, l: LinkedList, ps: seq<Ptr>, a: SList<T>, data: T, before: bool, lelem: Ptr)
    requires Rep(heap, l, ps, a) && CursorValid(a)
    requires Fresh(heap, lelem)
    ensures var heap' := InsertSL(heap, l, data, before, lelem).0;
            && heap'.Keys == heap.Keys + {lelem}
            && heap'[lelem] == Node(data, ps[a.cursor])
            && (a.cursor > 0 ==> heap'[ps[a.cursor - 1]] == heap[ps[a.cursor - 1]].(next := lelem))
            && (forall p :: p in heap && (a.cursor == 0 || p != ps[a.cursor - 1]) ==> heap'[p] == heap[p])
  {
  }

  /** Splicing an unused node `x` in at index `c` of a chain, with the node
      before index `c` redirected to it, yields the chain of the new heap. */
  lemma SplicedChain<T>(heap: Heap<T>, heap': Heap<T>, ps: seq<Ptr>, c: nat, x: Ptr)
    requires |ps| > 0 && IsChain(heap, ps[0], ps) && c < |ps|
    requires Fresh(heap, x)
    requires heap'.Keys == heap.Keys + {x}
    requires heap'[x].next == ps[c]
    requires c > 0 ==> heap'[ps[c - 1]].next == x
    requires forall p :: p in heap && (c == 0 || p != ps[c - 1]) ==> heap'[p] == heap[p]
    ensures IsChain(heap', (ps[..c] + [x] + ps[c..])[0], ps[..c] + [x] + ps[c..])
  {
    SplicedLinks(heap, heap', ps, c, x);
    assert x !in ps;
    SplicedDistinct(ps, c, x);
  }

  /** After the splice every node of the new list is allocated and points
      at the next one, the last at null. */
  lemma SplicedLinks<T>(heap: Heap<T>, heap': Heap<T>, ps: seq<Ptr>, c: nat, x: Ptr)
    requires |ps| > 0 && IsChain(heap, ps[0], ps) && c < |ps|
    requires Fresh(heap, x)
    requires heap'.Keys == heap.Keys + {x}
    requires heap'[x].next == ps[c]
    requires c > 0 ==> heap'[ps[c - 1]].next == x
    requires forall p :: p in heap && (c == 0 || p != ps[c - 1]) ==> heap'[p] == heap[p]
    ensures var ps' := ps[..c] + [x] + ps[c..];
            && (forall i :: 0 <= i < |ps'| ==> ps'[i] != Null && ps'[i] in heap')
            && (forall i :: 0 <= i < |ps'| - 1 ==> heap'[ps'[i]].next == ps'[i + 1])
            && heap'[ps'[|ps'| - 1]].next == Null
  {
    var ps' := ps[..c] + [x] + ps[c..];
    assert forall i :: 0 <= i < c ==> ps'[i] == ps[i];
    assert ps'[c] == x;
    assert forall i :: c < i < |ps'| ==> ps'[i] == ps[i - 1];
    forall i | 0 <= i < |ps'| - 1
      ensures heap'[ps'[i]].next == ps'[i + 1]
    {
      if i < c - 1 {
        assert heap'[ps[i]] == heap[ps[i]];
      } else if i > c {
        assert heap'[ps[i - 1]] == heap[ps[i - 1]];
      }
    }
    assert heap'[ps'[|ps'| - 1]] == heap[ps[|ps| - 1]];
  }

  /** Inserting a pointer absent from a list of distinct pointers keeps
      them distinct. */
  lemma SplicedDistinct(ps: seq<Ptr>, c: nat, x: Ptr)
    requires c < |ps| && x !in ps
    requires forall i, j :: 0 <= i < j < |ps| ==> ps[i] != ps[j]
    ensures var ps' := ps[..c] + [x] + ps[c..];
            forall i, j :: 0 <= i < j < |ps'| ==> ps'[i] != ps'[j]
  {
    var ps' := ps[..c] + [x] + ps[c..];
    forall i, j | 0 <= i < j < |ps'|
      ensures ps'[i] != ps'[j]
    {
      if j < c {
        assert ps'[i] == ps[i] && ps'[j] == ps[j];
      } else if j == c {
        assert ps'[i] == ps[i] && ps'[j] == x;
      } else if i < c {
        assert ps'[i] == ps[i] && ps'[j] == ps[j - 1];
      } else if i == c {
        assert ps'[i] == x && ps'[j] == ps[j - 1];
      } else {
        assert ps'[i] == ps[i - 1] && ps'[j] == ps[j - 1];
      }
    }
  }

  /** appendSL on the pointer structure. */
  function AppendSL<T>(heap: Heap<T>, l: LinkedList, data: T, lelem: Ptr): (r: (Heap<T>, LinkedList))
    requires Fresh(heap, lelem)
    requires Deref(heap, l)
    ensures r.0.Keys == heap.Keys + {lelem}
    ensures r.0[lelem] == Node(data, Null) && r.1.tail == lelem
    ensures forall p :: p in heap && p != l.tail ==> r.0[p] == heap[p]
  {
    var h1 := heap[lelem := Node(data, Null)];
    var h2 := if l.tail != Null then h1[l.tail := h1[l.tail].(next := lelem)] else h1;
    var l1 :=
      if l.head == Null then l.(head := lelem, beforeCursor := Null, cursor := lelem)
      else if l.cursor == Null then l.(cursor := lelem)
      else l;
    (h2, l1.(tail := lelem))
  }

  /** appendSL links the new node after the tail and performs the abstract
      Append. */
  lemma AppendSLRefines<T>(heap: Heap<T>, l: LinkedList, ps: seq<Ptr>, a: SList<T>, data: T, lelem: Ptr)
    requires Rep(heap, l, ps, a)
    requires Fresh(heap, lelem)
    ensures Deref(heap, l)
    ensures var (heap', l') := AppendSL(heap, l, data, lelem);
            Rep(heap', l', ps + [lelem], CursorList.Append(a, data))
  {
    AppendSLChain(heap, l, ps, a, data, lelem);
  }

  /** After appendSL the header's head reaches the old chain followed by the
      new node. */
  lemma AppendSLChain<T>(heap: Heap<T>, l: LinkedList, ps: seq<Ptr>, a: SList<T>, data: T, lelem: Ptr)
    requires Rep(heap, l, ps, a)
    requires Fresh(heap, lelem)
    ensures Deref(heap, l)
    ensures var (heap', l') := AppendSL(heap, l, data, lelem);
            && IsChain(heap', l'.head, ps + [lelem])
            && forall i :: 0 <= i < |ps| ==> heap'[ps[i]].data == heap[ps[i]].data
  {
    var (heap', l') := AppendSL(heap, l, data, lelem);
    var ps' := ps + [lelem];
    assert lelem !in ps;
    if |ps| > 0 {
      assert heap'[ps[|ps| - 1]] == heap[ps[|ps| - 1]].(next := lelem);
      assert forall i :: 0 <= i < |ps| - 1 ==> heap'[ps[i]] == heap[ps[i]];
    }
    assert IsChain(heap', l'.head, ps');
  }

  /** consSL on the pointer structure: appendSL on an empty list, otherwise a
      new head that becomes the cursor. */
  function ConsSL<T>(data: T, heap: Heap<T>, l: LinkedList, lelem: Ptr): (r: (Heap<T>, LinkedList))
    requires Fresh(heap, lelem)
    requires Deref(heap, l)
    ensures r.0.Keys == heap.Keys + {lelem}
    ensures r.1.head == lelem && r.0[lelem].data == data
    ensures l.head != Null ==> forall p :: p in heap ==> r.0[p] == heap[p]
  {
    if l.head == Null then AppendSL(heap, l, data, lelem)
    else (heap[lelem := Node(data, l.head)], l.(head := lelem, beforeCursor := Null, cursor := lelem))
  }

  /** consSL pushes the new node in front of the chain and performs the
      abstract Cons. */
  lemma ConsSLRefines<T>(heap: Heap<T>, l: LinkedList, ps: seq<Ptr>, a: SList<T>, data: T, lelem: Ptr)
    requires Rep(heap, l, ps, a) && (IsEmpty(a) || CursorValid(a))
    requires Fresh(heap, lelem)
    ensures Deref(heap, l)
    ensures var (heap', l') := ConsSL(data, heap, l, lelem);
            Rep(heap', l', [lelem] + ps, CursorList.Cons(data, a))
  {
    if l.head == Null {
      ConsSLEmpty(heap, l, ps, a, data, lelem);
    } else {
      ConsSLPush(heap, l, ps, a, data, lelem);
    }
  }

  /** consSL on an empty list is appendSL. */
  lemma ConsSLEmpty<T>(heap: Heap<T>, l: LinkedList, ps: seq<Ptr>, a: SList<T>, data: T, lelem: Ptr)
    requires Rep(heap, l, ps, a) && l.head == Null
    requires Fresh(heap, lelem)
    ensures Deref(heap, l) && IsEmpty(a)
    ensures var (heap', l') := ConsSL(data, heap, l, lelem);
            Rep(heap', l', [lelem] + ps, CursorList.Cons(data, a))
  {
    AppendSLRefines(heap, l, ps, a, data, lelem);
    assert ps == [];
  }

  /** consSL on a non-empty list. */
  lemma ConsSLPush<T>(heap: Heap<T>, l: LinkedList, ps: seq<Ptr>, a: SList<T>, data: T, lelem: Ptr)
    requires Rep(heap, l, ps, a) && l.head != Null && CursorValid(a)
    requires Fresh(heap, lelem)
    ensures Deref(heap, l)
    ensures var (heap', l') := ConsSL(data, heap, l, lelem);
            Rep(heap', l', [lelem] + ps, CursorList.Cons(data, a))
  {
    var (heap', l') := ConsSL(data, heap, l, lelem);
    var ps' := [lelem] + ps;
    assert lelem !in ps;
    assert forall i :: 0 < i < |ps'| ==> ps'[i] == ps[i - 1];
    assert IsChain(heap', l'.head, ps');
  }

  /** delete_and_nextSL on the pointer structure: unlink the cursor node,
      move the cursor to its successor, and free it. */
  function DeleteAndNextSL<T>(heap: Heap<T>, l: LinkedList): (r: (Heap<T>, LinkedList))
    requires Deref(heap, l) && l.cursor in heap
    ensures r.0.Keys == heap.Keys - {l.cursor}
    ensures r.1.cursor == heap[l.cursor].next
    ensures forall p :: p in r.0 && p != l.beforeCursor ==> r.0[p] == heap[p]
  {
    var lelem := l.cursor;
    var cursor := heap[lelem].next;
    var h1 := if l.beforeCursor != Null then heap[l.beforeCursor := heap[l.beforeCursor].(next := cursor)] else heap;
    var head := if lelem == l.head then heap[lelem].next else l.head;
    var tail := if l.tail == lelem then l.beforeCursor else l.tail;
    (h1 - {lelem}, LinkedList(head, tail, cursor, l.beforeCursor))
  }

  /** delete_and_nextSL unlinks exactly the cursor node and performs the
      abstract DeleteAndNext; when the tail goes, its predecessor becomes the
      tail. */
  lemma DeleteAndNextSLRefines<T>(heap: Heap<T>, l: LinkedList, ps: seq<Ptr>, a: SList<T>)
    requires Rep(heap, l, ps, a) && CursorValid(a)
    ensures Deref(heap, l) && l.cursor in heap
    ensures var r := DeleteAndNextSL(heap, l);
            Rep(r.0, r.1, ps[..a.cursor] + ps[a.cursor + 1..], CursorList.DeleteAndNext(a))
  {
    DeleteAndNextSLChain(heap, l, ps, a);
    DeleteAndNextSLData(heap, l, ps, a);
    DeleteAndNextSLHeader(heap, l, ps, a);
  }

  /** The heap after delete_and_nextSL: the cursor node is gone and its
      predecessor points at its successor; nothing else moves. */
  lemma DeleteAndNextSLHeap<T>(heap: Heap<T>, l: LinkedList, ps: seq<Ptr>, a: SList<T>)
    requires Rep(heap, l, ps, a) && CursorValid(a)
    ensures var heap' := DeleteAndNextSL(heap, l).0;
            && heap'.Keys == heap.Keys - {ps[a.cursor]}
            && (a.cursor > 0 ==> heap'[ps[a.cursor - 1]] == heap[ps[a.cursor - 1]].(next := heap[ps[a.cursor]].next))
            && (forall p :: p in heap && p != ps[a.cursor] && (a.cursor == 0 || p != ps[a.cursor - 1]) ==> heap'[p] == heap[p])
  {
  }

  /** Unlinking the node at index `c` of a chain, with the node before it
      redirected to its successor, yields the chain of the new heap. */
  lemma UnlinkedChain<T>(heap: Heap<T>, heap': Heap<T>, ps: seq<Ptr>, c: nat)
    requires |ps| > 0 && IsChain(heap, ps[0], ps) && c < |ps|
    requires heap'.Keys == heap.Keys - {ps[c]}
    requires c > 0 ==> heap'[ps[c - 1]].next == heap[ps[c]].next
    requires forall p :: p in heap && p != ps[c] && (c == 0 || p != ps[c - 1]) ==> heap'[p] == heap[p]
    ensures var ps' := ps[..c] + ps[c + 1..];
            IsChain(heap', if |ps'| == 0 then Null else ps'[0], ps')
  {
    UnlinkedLinks(heap, heap', ps, c);
    UnlinkedDistinct(ps, c);
  }

  /** The nodes left after unlinking index `c` are allocated and linked in
      order, the last one to null. */
  lemma UnlinkedLinks<T>(heap: Heap<T>, heap': Heap<T>, ps: seq<Ptr>, c: nat)
    requires |ps| > 0 && IsChain(heap, ps[0], ps) && c < |ps|
    requires heap'.Keys == heap.Keys - {ps[c]}
    requires c > 0 ==> heap'[ps[c - 1]].next == heap[ps[c]].next
    requires forall p :: p in heap && p != ps[c] && (c == 0 || p != ps[c - 1]) ==> heap'[p] == heap[p]
    ensures var ps' := ps[..c] + ps[c + 1..];
            && (forall i :: 0 <= i < |ps'| ==> ps'[i] != Null && ps'[i] in heap')
            && (forall i :: 0 <= i < |ps'| - 1 ==> heap'[ps'[i]].next == ps'[i + 1])
            && (|ps'| > 0 ==> heap'[ps'[|ps'| - 1]].next == Null)
  {
    var ps' := ps[..c] + ps[c + 1..];
    assert forall i :: 0 <= i < c ==> ps'[i] == ps[i];
    assert forall i :: c <= i < |ps'| ==> ps'[i] == ps[i + 1];
    forall i | 0 <= i < |ps'|
      ensures ps'[i] != Null && ps'[i] in heap'
    {
      if i >= c {
        assert ps'[i] == ps[i + 1];
      }
    }
    forall i | 0 <= i < |ps'| - 1
      ensures heap'[ps'[i]].next == ps'[i + 1]
    {
      if i < c - 1 {
        assert heap'[ps[i]] == heap[ps[i]];
      } else if i == c - 1 {
        assert heap[ps[c]].next == ps[c + 1];
      } else {
        assert heap'[ps[i + 1]] == heap[ps[i + 1]];
      }
    }
    if |ps'| > 0 {
      if c == |ps| - 1 {
        assert heap'[ps[c - 1]].next == Null;
      } else {
        assert heap'[ps'[|ps'| - 1]] == heap[ps[|ps| - 1]];
      }
    }
  }

  /** Dropping one entry of a list of distinct pointers leaves them
      distinct. */
  lemma UnlinkedDistinct(ps: seq<Ptr>, c: nat)
    requires c < |ps|
    requires forall i, j :: 0 <= i < j < |ps| ==> ps[i] != ps[j]
    ensures var ps' := ps[..c] + ps[c + 1..];
            forall i, j :: 0 <= i < j < |ps'| ==> ps'[i] != ps'[j]
  {
    var ps' := ps[..c] + ps[c + 1..];
    forall i, j | 0 <= i < j < |ps'|
      ensures ps'[i] != ps'[j]
    {
      if j < c {
        assert ps'[i] == ps[i] && ps'[j] == ps[j];
      } else if i < c {
        assert ps'[i] == ps[i] && ps'[j] == ps[j + 1];
      } else {
        assert ps'[i] == ps[i + 1] && ps'[j] == ps[j + 1];
      }
    }
  }

  lemma DeleteAndNextSLChain<T>(heap: Heap<T>, l: LinkedList, ps: seq<Ptr>, a: SList<T>)
    requires Rep(heap, l, ps, a) && CursorValid(a)
    ensures var r := DeleteAndNextSL(heap, l);
            IsChain(r.0, r.1.head, ps[..a.cursor] + ps[a.cursor + 1..])
  {
    var c := a.cursor;
    var r := DeleteAndNextSL(heap, l);
    var ps' := ps[..c] + ps[c + 1..];
    DeleteAndNextSLHeap(heap, l, ps, a);
    UnlinkedChain(heap, r.0, ps, c);
    if c > 0 {
      assert ps[c] != ps[0];
      assert ps'[0] == ps[0];
    } else if |ps| > 1 {
      assert ps'[0] == ps[1];
    }
  }

  lemma DeleteAndNextSLData<T>(heap: Heap<T>, l: LinkedList, ps: seq<Ptr>, a: SList<T>)
    requires Rep(heap, l, ps, a) && CursorValid(a)
    ensures var heap' := DeleteAndNextSL(heap, l).0;
            var ps' := ps[..a.cursor] + ps[a.cursor + 1..];
            var a' := CursorList.DeleteAndNext(a);
            forall i :: 0 <= i < |ps'| ==> heap'[ps'[i]].data == a'.items[i]
  {
    var c := a.cursor;
    var heap' := DeleteAndNextSL(heap, l).0;
    var ps' := ps[..c] + ps[c + 1..];
    var a' := CursorList.DeleteAndNext(a);
    DeleteAndNextSLHeap(heap, l, ps, a);
    forall i | 0 <= i < |ps'|
      ensures heap'[ps'[i]].data == a'.items[i]
    {
      if i < c {
        assert ps'[i] == ps[i] && a'.items[i] == a.items[i];
        assert ps[i] != ps[c];
      } else {
        assert ps'[i] == ps[i + 1] && a'.items[i] == a.items[i + 1];
        assert ps[i + 1] != ps[c];
      }
    }
  }

  lemma DeleteAndNextSLHeader<T>(heap: Heap<T>, l: LinkedList, ps: seq<Ptr>, a: SList<T>)
    requires Rep(heap, l, ps, a) && CursorValid(a)
    ensures var l' := DeleteAndNextSL(heap, l).1;
            var ps' := ps[..a.cursor] + ps[a.cursor + 1..];
            var a' := CursorList.DeleteAndNext(a);
            && l'.tail == (if |ps'| == 0 then Null else ps'[|ps'| - 1])
            && l'.cursor == (if a'.cursor < |ps'| then ps'[a'.cursor] else Null)
            && l'.beforeCursor == (if a'.cursor == 0 then Null else ps'[a'.cursor - 1])
  {
    var c := a.cursor;
    var ps' := ps[..c] + ps[c + 1..];
    if c == |ps| - 1 {
      if c > 0 {
        assert ps'[c - 1] == ps[c - 1];
      }
    } else {
      assert ps[|ps| - 1] != ps[c];
      assert ps'[|ps'| - 1] == ps[|ps| - 1];
      assert ps'[c] == ps[c + 1];
      assert heap[ps[c]].next == ps[c + 1];
    }
    if c > 0 {
      assert ps'[c - 1] == ps[c - 1];
    }
  }
}

=== FILE: wrappers.dfy ===
/** Failure-carrying return types. The modelled C code aborts or returns a null
    pointer where these carry `None` or a `Failure`. */
module Wrappers {

  /** A possibly-null reference. */
  datatype Option<+T> = None | Some(value: T)

  /** The outcome of an operation that aborts the program on some inputs. */
  datatype Result<+R, +E> = Success(value: R) | Failure(error: E)
}
